=== FILE: README.md ===
# Short-key service core, modelled in Dafny

This project models the sequential core of a URL-shortening service. The
service runs as several processes that coordinate through a ZooKeeper
ensemble (the coordination store). The core has four parts:

- **Key claim** (`UrlAccessor`). Candidate keys are the first `length` hex
  digits of the SHA-256 digest of the url followed by the attempt number.
  Each candidate is claimed with an atomic create-if-absent. There are at most
  10 attempts. A successful claim is counted under its key length.
- **Hash-length controller and counters** (`StateAccessor`). The hash length
  is initialised to 1 only if absent, and reads go through a local cache. The
  per-length claim counters live at `/state/count/<n>`. The increment retries
  until the store commits it. On each tick the leader grows the length by one
  when `1 - (count / 62^length)^10 < 0.9`.
- **Ensemble snapshot** (`DynamicEnsembleProvider`). Each registered member
  becomes a node whose host is the text before the first `:` of the member's
  data. Two seed servers on the coordinator's host are appended. The snapshot
  is rendered as a `host:port,...` connection string.
- **Reconfiguration and membership** (`ZooKeeperClient`). Every node becomes a
  `server.<id>=<address>:<quorum>:<election>:participant;<client>` line, the
  server-spec grammar of ZooKeeper 3.5 dynamic reconfiguration. The module
  also handles the membership watch event and member registration.

The coordination store is explicit state:

- url mappings are a `map<string, string>` from short key to url;
- counters are a `map<string, int>` from path to value (an absent counter reads 0);
- the membership path holds a sequence of `Member(name, data)` children.

The store's answers that the code cannot predict are inputs:

- how often an increment fails to commit, and whether it raises (`CasReplies`);
- whether a member's data can be read;
- whether this process holds leadership on a tick;
- whether a create of a short key or of a member fails in the store with an
  error other than "node exists";
- the registration timestamp.

Each module has its own file: `common.dfy` (Option/Result and the exception
kinds), `text.dfy` (decimal rendering and parsing, split/join), `node.dfy`,
`state_accessor.dfy`, `url_accessor.dfy`, `ensemble_provider.dfy` and
`zookeeper_client.dfy`.

Three facts about the claim shape the model:

- the 10 attempts follow one another with no delay between them;
- each successful claim increments the shared counter for its length
  directly in the store, one increment per claim;
- the candidates are prefixes of the digest, so a url always yields the same
  candidates in the same order.

The code builds `Node` values with constructors the record does not declare
(a one-argument and a four-argument one). The model follows the evident intent:
such nodes carry no id (`None`) and use the given or default ports. A node
without an id renders as `server.null=...`, and
`ZooKeeperClient.ReconfigEntry` states that such a line is not a
valid server spec. Every node of a refreshed snapshot lacks an id, so
`ZooKeeperClient.JoiningNeverParses` shows that no line the watch handler
sends for reconfiguration is a valid server spec. Keys use 16 hex symbols while the growth model assumes 62
symbols. Both are modelled as written.

## Model

| member | source | states |
|---|---|---|
| Nodes.NewNode | src/main/java/edu/duke/cs/is_v2/zookeeper/Node.java:7 | the canonical constructor keeps all five fields as given |
| Nodes.NodeWithDefaultPorts | src/main/java/edu/duke/cs/is_v2/zookeeper/Node.java:8-10 | the two-argument constructor keeps id and address and sets ports 2181, 2888, 3888 |
| StateAccessor.Initialize | src/main/java/edu/duke/cs/is_v2/StateAccessor.java:43-54 | the hash length becomes 1 only when absent; an existing value and every other counter are kept |
| StateAccessor.InitializeIdempotent | src/main/java/edu/duke/cs/is_v2/StateAccessor.java:43-54 | initialising twice equals initialising once |
| StateAccessor.GetCurrentHashLength | src/main/java/edu/duke/cs/is_v2/StateAccessor.java:56-87 | a read returns the cached length when there is one and no refresh is forced, else the store's; the value read is cached afterwards; the store is untouched |
| StateAccessor.ForceRefreshReadsStore | src/main/java/edu/duke/cs/is_v2/StateAccessor.java:60-64 | with forceRefresh the read returns the store's length, never a stale cached one |
| StateAccessor.CountPathsDistinct | src/main/java/edu/duke/cs/is_v2/StateAccessor.java:138-145 | different lengths have different count paths, and no count path is the hash-length path |
| StateAccessor.GetCountForLength | src/main/java/edu/duke/cs/is_v2/StateAccessor.java:144-161 | the count for a length is its counter's value, and 0 for a length nobody has counted yet |
| StateAccessor.Increment | src/main/java/edu/duke/cs/is_v2/StateAccessor.java:163-182 | the loop retries until the store commits (conflicts + 1 attempts), then has added exactly 1 to that one counter and returns true; a store exception ends the loop, propagates and changes nothing |
| StateAccessor.IncrementEffect | src/main/java/edu/duke/cs/is_v2/StateAccessor.java:163-182 | the net effect of an increment: the path's counter is one higher and every other counter is unchanged, or an error with no change |
| StateAccessor.IncrementCountForLength | src/main/java/edu/duke/cs/is_v2/StateAccessor.java:138-142 | counting a claim raises the count for that length by one and changes no other counter |
| StateAccessor.IncrementCountTouchesOneLength | src/main/java/edu/duke/cs/is_v2/StateAccessor.java:138-142 | counting at length n leaves the count at every other length and the hash length unchanged |
| StateAccessor.IncrementHashLength | src/main/java/edu/duke/cs/is_v2/StateAccessor.java:128-136 | growth raises the stored length by exactly one, returns true and empties the cache; a store exception leaves the state as it was |
| StateAccessor.ReadAfterGrowthIsFresh | src/main/java/edu/duke/cs/is_v2/StateAccessor.java:131-133 | after growth the next plain read returns the new stored length |
| StateAccessor.ProbOfFindingAnUnusedHash | src/main/java/edu/duke/cs/is_v2/StateAccessor.java:106-110 | computes 1 - (count/62^length)^10 exactly; it lies in [0, 1] whenever 0 <= count <= 62^length, and is 1 when no key is taken |
| StateAccessor.ShouldGrow | src/main/java/edu/duke/cs/is_v2/StateAccessor.java:106-112 | the growth test 1 - (count/62^length)^10 < 0.9, computed exactly in reals (the reference the lemmas below are measured against); a count of 0 never grows |
| StateAccessor.ShouldGrowAsAllCollide | src/main/java/edu/duke/cs/is_v2/StateAccessor.java:106-112 | growth happens exactly when the chance that all 10 candidates collide exceeds one tenth |
| StateAccessor.ShouldGrowIntegerForm | src/main/java/edu/duke/cs/is_v2/StateAccessor.java:89-112 | for length >= 0, growth happens exactly when 10 * count^10 > 62^(10 * length) |
| StateAccessor.EmptyNeverGrows | src/main/java/edu/duke/cs/is_v2/StateAccessor.java:106-112 | a count of 0 never triggers growth, whatever the length |
| StateAccessor.ShouldGrowMonotone | src/main/java/edu/duke/cs/is_v2/StateAccessor.java:106-112 | for non-negative counts, a larger count grows whenever a smaller one does |
| StateAccessor.GrowthThresholdAtLengthOne | src/main/java/edu/duke/cs/is_v2/StateAccessor.java:89-112 | at length 1 the leader grows exactly when the count is at least 50 |
| StateAccessor.FiftyFiveAtLengthOneGrows | src/main/java/edu/duke/cs/is_v2/StateAccessor.java:106-112 | 55 keys of length 1 trigger growth |
| StateAccessor.Tick | src/main/java/edu/duke/cs/is_v2/StateAccessor.java:100-118 | a follower changes nothing; a leader's tick reports growth iff the test holds for the visible length and its count and the store commits, and raises (a store failure) iff the test holds and the increment raises; the stored length rises by exactly one on growth, otherwise it is unchanged; no other counter changes |
| StateAccessor.Run | src/main/java/edu/duke/cs/is_v2/StateAccessor.java:100-126 | over any sequence of ticks only the hash length changes, it never decreases, and it grows by at most one per tick |
| StateAccessor.RunStopsAtException | src/main/java/edu/duke/cs/is_v2/StateAccessor.java:114-124 | a tick whose increment raises ends the loop: the run leaves that tick's state, whatever ticks would follow |
| StateAccessor.RaisingTickEndsRun | src/main/java/edu/duke/cs/is_v2/StateAccessor.java:100-126 | with 55 keys at length 1, a raising leader tick followed by one that would commit leaves the length at 1 |
| StateAccessor.FollowerRunChangesNothing | src/main/java/edu/duke/cs/is_v2/StateAccessor.java:100-101 | a process that never holds leadership never changes any state |
| UrlAccessor.Hash | src/main/java/edu/duke/cs/is_v2/UrlAccessor.java:77-85 | a candidate is a prefix of the 64-hex-digit digest of url + n, exactly `length` hex characters long; any length outside 0..64 fails |
| UrlAccessor.EmptyKeyPathInvalid | src/main/java/edu/duke/cs/is_v2/UrlAccessor.java:65-68 | the empty key gives the path `/urls/`, which the store refuses |
| UrlAccessor.HexKeyPathValid | src/main/java/edu/duke/cs/is_v2/UrlAccessor.java:46-52 | every non-empty key of hex digits names a path the store accepts |
| UrlAccessor.AtomicCheckAndPersist | src/main/java/edu/duke/cs/is_v2/UrlAccessor.java:46-63 | the create succeeds iff the path is valid, the store answers and the key is free, and then adds only that mapping; a taken key answers false; a path the store refuses (the empty key's) and a store failure raise; only a creation changes the mappings |
| UrlAccessor.GetOriginalUrl | src/main/java/edu/duke/cs/is_v2/UrlAccessor.java:65-75 | a key whose path the store refuses, the empty key included, raises; otherwise the stored url for a claimed key and null for an unclaimed one |
| UrlAccessor.GetAfterPersist | src/main/java/edu/duke/cs/is_v2/UrlAccessor.java:46-75 | after a successful create the key reads back as its url, and every other key reads as before |
| UrlAccessor.FirstFree | src/main/java/edu/duke/cs/is_v2/UrlAccessor.java:27-37 | the reference for the loop: the least attempt from a given one whose candidate is free; every candidate before it is taken; the number of candidates when all are |
| UrlAccessor.CandidateIsHash | src/main/java/edu/duke/cs/is_v2/UrlAccessor.java:29-31 | candidate k of a claim is the hash of attempt k, for the length in use |
| UrlAccessor.Attempts | src/main/java/edu/duke/cs/is_v2/UrlAccessor.java:29-36 | attempts end at a failing create, skip a taken candidate and create the first free one; a created candidate is free and a failing create lies within the attempts |
| UrlAccessor.AttemptsCreateFirstFree | src/main/java/edu/duke/cs/is_v2/UrlAccessor.java:27-36 | a created candidate is the first free one, as `UrlAccessor.FirstFree` says |
| UrlAccessor.AttemptsExhausted | src/main/java/edu/duke/cs/is_v2/UrlAccessor.java:29-43 | the attempts give up exactly when no remaining create fails and every remaining candidate is taken |
| UrlAccessor.AttemptsCreateFailure | src/main/java/edu/duke/cs/is_v2/UrlAccessor.java:29-32 | a create failing at attempt f ends the attempts exactly when every candidate before f is taken |
| UrlAccessor.Settle | src/main/java/edu/duke/cs/is_v2/UrlAccessor.java:32-43 | giving up and a failed create leave the mappings and counters alone; a created key is mapped to the url and the count for its length rises by one, with every other counter unchanged; the call succeeds iff a key was created and the count did not raise, and then returns that key |
| UrlAccessor.Claim | src/main/java/edu/duke/cs/is_v2/UrlAccessor.java:25-44 | the length read is cached; no existing mapping is replaced; a failed call moves no counter; a failure other than a store failure creates nothing; a returned key was free and is now mapped to the url, and no other mapping changes |
| UrlAccessor.TryAttempt | src/main/java/edu/duke/cs/is_v2/UrlAccessor.java:30-36 | one iteration: a length outside the digest ends the call with IndexOutOfBounds and length 0 with InvalidPath; there is no outcome, and the loop goes on, iff the create did not fail and the candidate is taken; otherwise the call ends with the outcome the claim settles on |
| UrlAccessor.GenerateShortened | src/main/java/edu/duke/cs/is_v2/UrlAccessor.java:25-44 | the attempt loop, with the length read on every attempt, ends in exactly the outcome and state of `UrlAccessor.Claim` |
| UrlAccessor.ClaimedKeyWasFree | src/main/java/edu/duke/cs/is_v2/UrlAccessor.java:30-34 | a returned key was free before; afterwards it maps to the url, no other mapping changes, its length's count is one higher and no other counter moves |
| UrlAccessor.ClaimIsFirstFreeCandidate | src/main/java/edu/duke/cs/is_v2/UrlAccessor.java:27-36 | the returned key is candidate j for some j < 10, and every candidate before j collided |
| UrlAccessor.ClaimExhaustion | src/main/java/edu/duke/cs/is_v2/UrlAccessor.java:29-43 | the claim fails with UnusedHashNotFound iff the length is usable, no create fails and all 10 candidates are taken; then nothing is created and nothing counted |
| UrlAccessor.CreateFailureEndsClaim | src/main/java/edu/duke/cs/is_v2/UrlAccessor.java:55-61 | a create the store fails at attempt f ends the call with nothing created and nothing counted, exactly when every candidate before f is taken |
| UrlAccessor.ClaimNeverOverwrites | src/main/java/edu/duke/cs/is_v2/UrlAccessor.java:46-56 | whatever the outcome, every existing mapping keeps its value |
| UrlAccessor.CountFailureKeepsMapping | src/main/java/edu/duke/cs/is_v2/UrlAccessor.java:32-34 | if the count increment raises, the call fails and no counter moves; when no create failed, the failure is the store's and the new mapping has already been created and is kept |
| UrlAccessor.ClaimsNeverRepeat | src/main/java/edu/duke/cs/is_v2/UrlAccessor.java:46-56 | two successive successful claims return different keys, and the first still maps to its url |
| UrlAccessor.FirstClaimOnEmptyStore | src/main/java/edu/duke/cs/is_v2/UrlAccessor.java:27-34 | with no mappings, the claim returns the first `length` digest characters of url + "0" |
| DynamicEnsembleProvider.FirstField | src/main/java/edu/duke/cs/is_v2/zookeeper/DynamicEnsembleProvider.java:54-56 | the first element of split(":"): the text before the first ':'; it fails exactly for a non-empty string made only of ':' |
| DynamicEnsembleProvider.MemberNode | src/main/java/edu/duke/cs/is_v2/zookeeper/DynamicEnsembleProvider.java:53-56 | a member becomes a node with no id, the text before the first ':' of its data as host and the default ports; unreadable data raises a store failure and data made only of ':' an index error |
| DynamicEnsembleProvider.MemberNodes | src/main/java/edu/duke/cs/is_v2/zookeeper/DynamicEnsembleProvider.java:52-58 | one node per member in order, or failure iff some member's data is unreadable or is a non-empty string made only of ':'; the failure is the first such member's error |
| DynamicEnsembleProvider.SeedNodes | src/main/java/edu/duke/cs/is_v2/zookeeper/DynamicEnsembleProvider.java:62-63 | exactly two seed nodes, built only when the coordinator address has a host part |
| DynamicEnsembleProvider.RefreshConnectionString | src/main/java/edu/duke/cs/is_v2/zookeeper/DynamicEnsembleProvider.java:42-72 | the membership path exists afterwards; a refresh succeeds iff every member's data is readable and not a non-empty string made only of ':', and the coordinator address (a constructor argument) is not a non-empty string made only of ':'; a failure raises and keeps the previous snapshot |
| DynamicEnsembleProvider.RefreshedSnapshot | src/main/java/edu/duke/cs/is_v2/zookeeper/DynamicEnsembleProvider.java:49-65 | after a successful refresh: children + 2 nodes; node i is member i's host (text before the first ':') with the default ports; then the seeds with ports 2181/2888/3888 and 2182/2889/3889 |
| DynamicEnsembleProvider.RefreshIdempotent | src/main/java/edu/duke/cs/is_v2/zookeeper/DynamicEnsembleProvider.java:49-65 | refreshing again with the same members gives the same result and snapshot |
| DynamicEnsembleProvider.HostsAndPorts | src/main/java/edu/duke/cs/is_v2/zookeeper/DynamicEnsembleProvider.java:88-92 | one `address:clientPort` entry per node, in order |
| DynamicEnsembleProvider.GetConnectionString | src/main/java/edu/duke/cs/is_v2/zookeeper/DynamicEnsembleProvider.java:85-98 | the connection string is empty iff there are no nodes; otherwise it starts with the first node's `address:clientPort` |
| DynamicEnsembleProvider.ConnectionStringRoundTrip | src/main/java/edu/duke/cs/is_v2/zookeeper/DynamicEnsembleProvider.java:85-98 | for nodes whose addresses hold neither ',' nor ':': no nodes give ""; otherwise splitting at commas yields one entry per node, in order, each reading back as that node's address and client port |
| DynamicEnsembleProvider.SetConnectionString | src/main/java/edu/duke/cs/is_v2/zookeeper/DynamicEnsembleProvider.java:105-108 | setting a connection string changes nothing |
| DynamicEnsembleProvider.UpdateServerListEnabled | src/main/java/edu/duke/cs/is_v2/zookeeper/DynamicEnsembleProvider.java:100-103 | server-list updates are always enabled |
| ZooKeeperClient.GetReconfigEnsembleString | src/main/java/edu/duke/cs/is_v2/zookeeper/ZooKeeperClient.java:80-90 | one spec line per node, same length and order as the nodes |
| ZooKeeperClient.ReconfigEntry | src/main/java/edu/duke/cs/is_v2/zookeeper/ZooKeeperClient.java:83-88 | the `server.%d=%s:%d:%d:participant;%d` line of one node: for a positive id, non-negative ports and an address without ':' or ';', parsing it by the server-spec grammar recovers id, address and all three ports, with the participant role; a node without an id renders `server.null=...`, which is not a server spec |
| ZooKeeperClient.ReconfigListRoundTrip | src/main/java/edu/duke/cs/is_v2/zookeeper/ZooKeeperClient.java:80-89 | for nodes with a positive id, non-negative ports and an address free of ':' and ';': every line of the reconfiguration list parses back to its node's spec, in order, each one a participant |
| ZooKeeperClient.JoiningNeverParses | src/main/java/edu/duke/cs/is_v2/zookeeper/ZooKeeperClient.java:48-61 | every line of a joining list the watch handler sends is not a server spec, since every refreshed node lacks an id |
| ZooKeeperClient.HandleWatchEvent | src/main/java/edu/duke/cs/is_v2/zookeeper/ZooKeeperClient.java:48-61 | only NodeChildrenChanged acts: it refreshes and sends the new snapshot's spec lines for reconfiguration; a failed refresh is swallowed and keeps the snapshot; any other event changes nothing |
| ZooKeeperClient.RegisterMember | src/main/java/edu/duke/cs/is_v2/zookeeper/ZooKeeperClient.java:121-134 | registration succeeds iff the store answers and the name `server-<millis>` is free; it then adds exactly one child, with the member address as data (the children grow by exactly that member, as a multiset); a taken name raises NodeExists, a store failure raises, and either changes nothing |
| ZooKeeperClient.RegisteredMemberJoinsSnapshot | src/main/java/edu/duke/cs/is_v2/zookeeper/ZooKeeperClient.java:121-129 | whatever order the store lists the children in, a successful refresh after registration has a node for the new member's host, with default ports, among the member nodes before the two seeds |

## Left out

- The ZooKeeper/Curator client library is replaced by the explicit maps and sequence described above. Retry policies, `creatingParentsIfNeeded` beyond creating the membership path, and connection loss on plain reads are not modelled.
- The reconfiguration call itself (`reconfig().joining(...).forEnsemble()`) is not modelled. The model produces the joining list it would be sent.
- The leader latch, the background thread, `Thread.sleep` and `leaderLatch.await` are not modelled, because they are concurrency and timing. Leadership is a boolean input per tick, and a tick is one pure step.
- StateAccessor.Increment: only store behaviours that eventually commit or raise are modelled. A store that never commits would make the source loop forever, and that case is not represented.
- The cache's 10-second expiry is wall-clock behaviour. The cache is modelled as present or absent, with explicit invalidation only.
- SHA-256 is a foreign library. It is any function whose output is 64 lower-case hex characters. The UTF-8 encoding of the input is part of that function.
- StateAccessor.ShouldGrow uses exact reals with the threshold 0.9. The source compares doubles against the float 0.9f, which is 0.89999997615814208984375. Rounding in `Math.pow` and that float value near the boundary are idealised away.
- `intValue()` truncation of the stored longs and 64-bit wrap-around are not modelled. Counters and lengths stay far below 2^31.
- `initialize` also swallows connection failures. The model has no failing initialisation.
- `registerThisMachine` (network-interface discovery) and `System.currentTimeMillis` are OS input. The timestamp is a parameter of `RegisterMember`.
- The path rules of `UrlAccessor.ValidKeyPath` are those of ZooKeeper's client library, which is not part of this model; they are restated there (refused characters, empty names, "." and "..").
- UrlAccessor.AtomicCheckAndPersist: a create that the store commits but whose answer is lost is not modelled; a failing create creates nothing. `creatingParentsIfNeeded` would create intermediate nodes for a key holding '/'; the model keeps such a key flat, and the claim only ever passes hex keys.
- UrlAccessor.GetOriginalUrl: a read failing for another reason (a lost connection, rethrown as a RuntimeException) is not modelled; a valid path always gets an answer.
- StateAccessor.GetCountForLength: a read of the counter that does not succeed raises in the source; the model's reads always succeed.
- DynamicEnsembleProvider.RefreshConnectionString lists the members in the order the coordinator holds them, which is creation order in this model. ZooKeeper does not specify the order of `getChildren`, so `ZooKeeperClient.RegisteredMemberJoinsSnapshot` takes the listing order as an input and claims no position.
- Stored data is converted with the JVM's default charset (`getBytes()` and `new String(byte[])` in `UrlAccessor` and `ZooKeeperClient`, and the member data read by `DynamicEnsembleProvider`). The model assumes a lossless default charset such as UTF-8: a stored string reads back as the same string, as `UrlAccessor.GetAfterPersist` states.
- `String.formatted` renders `%d` in the default format locale. The model assumes a locale with ASCII digits and no grouping, so `ZooKeeperClient.ReconfigEntry` uses plain decimal text.
- ZooKeeperClient.RegisteredMemberJoinsSnapshot: registration writes through the client built on the snapshot's connection string, while the refresh reads through the provider's client connected to the coordinator address. The model takes both to reach the same replicated ensemble (the seeds sit on the coordinator's host) and holds one membership tree; replication lag between the two is not modelled.
- The ephemeral expiry of members and the one-shot nature of ZooKeeper watches are not modelled.
- The constructor, `start` and `close` of the ensemble provider, and the constructor of the client, are wiring. The HTTP controller and the Spring configuration are not part of this model.

=== FILE: common.dfy ===
/** Failure-compatible wrappers shared by every module of the model, and the
    exceptions the modelled Java code can raise. */
module Common {

  /** Some/None in place of a Java reference that may be null. */
  datatype Option<+T> = None | Some(value: T) {

    predicate IsFailure() {
      None?
    }

    function PropagateFailure<U>(): Option<U>
      requires None?
    {
      None
    }

    function Extract(): T
      requires Some?
    {
      value
    }
  }

  /** The exceptions of the modelled code, by kind. */
  datatype Error =
    | UnusedHashNotFound   // all claim attempts collided
    | IndexOutOfBounds     // String.substring or an array index out of range
    | InvalidPath          // the store refuses a malformed path
    | NodeExists           // create on a path that is already taken
    | StoreFailure         // any other error reported by the coordination store

  /** A value, or the exception that was thrown instead. */
  datatype Result<+T> = Ok(value: T) | Err(error: Error) {

    predicate IsFailure() {
      Err?
    }

    function PropagateFailure<U>(): Result<U>
      requires Err?
    {
      Err(error)
    }

    function Extract(): T
      requires Ok?
    {
      value
    }
  }
}

=== FILE: ensemble_provider.dfy ===
/** The dynamic ensemble provider: a snapshot of the coordination ensemble,
    rebuilt from the members registered under the membership path plus two
    fixed seed servers on the coordinator's host, and rendered as a client
    connection string. */
module DynamicEnsembleProvider {
  import opened Common
  import opened Text
  import opened Nodes

  const EnsemblePath := "/ensemble/members"

  /** A child of the membership path. `data` is None when reading it fails:
      the entry vanished between listing and reading, or the store erred. */
  datatype Member = Member(name: string, data: Option<string>)

  /** The coordinator's membership subtree: None while the membership path
      does not exist, else its children in listing order. */
  datatype Coordinator = Coordinator(members: Option<seq<Member>>)

  /** The provider: where the coordinator is, and the current snapshot. */
  datatype Provider = Provider(coordinatorAddress: string, ensembleNodes: seq<Node>)

  /** The first element of Java's `s.split(":")`. Splitting drops trailing
      empty pieces, so a non-empty string made only of ':' gives an empty
      array and indexing it fails; otherwise it is the text before the first ':'. */
  function FirstField(s: string): (r: Option<string>)
    ensures r.None? <==> |s| > 0 && forall i :: 0 <= i < |s| ==> s[i] == ':'
    ensures r.Some? ==> ':' !in r.value && r.value <= s
    ensures r.Some? && |r.value| < |s| ==> s[|r.value|] == ':'
  {
    if |s| > 0 && forall i :: 0 <= i < |s| ==> s[i] == ':' then None
    else Some(s[..IndexOf(s, ':')])
  }

  /** The node a member's data describes: its host, with the default ports
      and no id. An unreadable member is a store failure; data made only of
      ':' has no first field, and indexing the empty split fails. */
  function MemberNode(m: Member): (r: Result<Node>)
    ensures r.Ok? <==> m.data.Some? && FirstField(m.data.value).Some?
    ensures r.Ok? ==> r.value == NodeWithDefaultPorts(None, FirstField(m.data.value).value)
    ensures m.data.None? ==> r == Err(StoreFailure)
    ensures m.data.Some? && r.Err? ==> r.error == IndexOutOfBounds
  {
    match m.data
    case None => Err(StoreFailure)
    case Some(nodeData) =>
      match FirstField(nodeData)
      case None => Err(IndexOutOfBounds)
      case Some(host) => Ok(NodeWithDefaultPorts(None, host))
  }

  /** One node per member, in order. The first member that cannot be turned
      into a node ends the loop with its exception. */
  function MemberNodes(members: seq<Member>): (r: Result<seq<Node>>)
    ensures r.Ok? <==> forall i :: 0 <= i < |members| ==> MemberNode(members[i]).Ok?
    ensures r.Ok? ==> |r.value| == |members|
    ensures r.Ok? ==> forall i :: 0 <= i < |members| ==> r.value[i] == MemberNode(members[i]).value
    ensures r.Err? ==> exists i :: 0 <= i < |members| && MemberNode(members[i]) == Err(r.error)
                                   && forall k :: 0 <= k < i ==> MemberNode(members[k]).Ok?
  {
    if |members| == 0 then Ok([])
    else
      match MemberNode(members[0])
      case Err(e) => Err(e)
      case Ok(node) =>
        match MemberNodes(members[1..])
        case Err(e) =>
          ghost var i :| 0 <= i < |members| - 1 && MemberNode(members[1..][i]) == Err(e)
                         && forall k :: 0 <= k < i ==> MemberNode(members[1..][k]).Ok?;
          assert MemberNode(members[i + 1]) == Err(e);
          assert forall k :: 1 <= k < i + 1 ==> MemberNode(members[k]) == MemberNode(members[1..][k - 1]);
          Err(e)
        case Ok(rest) => Ok([node] + rest)
  }

  /** The two seed servers on the coordinator's host. */
  function SeedNodes(coordinatorAddress: string): (r: Result<seq<Node>>)
    ensures r.Ok? <==> FirstField(coordinatorAddress).Some?
    ensures r.Err? ==> r.error == IndexOutOfBounds
    ensures r.Ok? ==> |r.value| == 2
  {
    match FirstField(coordinatorAddress)
    case None => Err(IndexOutOfBounds)
    case Some(host) => Ok([NewNode(None, host, 2181, 2888, 3888), NewNode(None, host, 2182, 2889, 3889)])
  }

  /** The result of a refresh and the state it leaves. */
  datatype Refreshed = Refreshed(outcome: Result<()>, provider: Provider, coordinator: Coordinator)

  /** Rebuilds the snapshot: creates the membership path when missing, reads
      every member, appends the seeds, and only then replaces the snapshot.
      Any failure raises and keeps the previous snapshot. */
  function RefreshConnectionString(p: Provider, c: Coordinator): (r: Refreshed)
    ensures r.coordinator.members == Some(if c.members.Some? then c.members.value else [])
    ensures r.provider.coordinatorAddress == p.coordinatorAddress
    ensures r.outcome.Err? ==> r.outcome.error in {StoreFailure, IndexOutOfBounds} && r.provider == p
    ensures r.outcome.Ok? <==>
              (forall i :: 0 <= i < |r.coordinator.members.value| ==> MemberNode(r.coordinator.members.value[i]).Ok?)
              && FirstField(p.coordinatorAddress).Some?
  {
    var members := if c.members.Some? then c.members.value else [];
    var c' := Coordinator(Some(members));
    match MemberNodes(members)
    case Err(e) =>
      assert exists i :: 0 <= i < |members| && MemberNode(members[i]) == Err(e);
      Refreshed(Err(e), p, c')
    case Ok(updatedNodes) =>
      match SeedNodes(p.coordinatorAddress)
      case Err(e) => Refreshed(Err(e), p, c')
      case Ok(seeds) => Refreshed(Ok(()), p.(ensembleNodes := updatedNodes + seeds), c')
  }

  /** After a successful refresh the snapshot holds one node per member, in
      listing order, addressed by the text before the first ':' of the
      member's data, then the two seeds on the coordinator's host. */
  lemma RefreshedSnapshot(p: Provider, c: Coordinator)
    requires RefreshConnectionString(p, c).outcome.Ok?
    ensures var members := RefreshConnectionString(p, c).coordinator.members.value;
            var nodes := RefreshConnectionString(p, c).provider.ensembleNodes;
            var host := FirstField(p.coordinatorAddress).value;
            && |nodes| == |members| + 2
            && (forall i :: 0 <= i < |members| ==>
                  && members[i].data.Some?
                  && nodes[i] == NodeWithDefaultPorts(None, FirstField(members[i].data.value).value)
                  && ':' !in nodes[i].address && nodes[i].address <= members[i].data.value)
            && nodes[|members|] == Node(None, host, 2181, 2888, 3888)
            && nodes[|members| + 1] == Node(None, host, 2182, 2889, 3889)
  {
    var members := RefreshConnectionString(p, c).coordinator.members.value;
    forall i | 0 <= i < |members|
      ensures members[i].data.Some?
    {
      assert MemberNode(members[i]).Ok?;
    }
  }

  /** Refreshing again with the same members gives the same result and snapshot. */
  lemma RefreshIdempotent(p: Provider, c: Coordinator)
    ensures var r1 := RefreshConnectionString(p, c);
            var r2 := RefreshConnectionString(r1.provider, r1.coordinator);
            r2 == r1
  {
  }

  /** `address:clientPort` for one node. */
  function HostAndPort(n: Node): string
  {
    n.address + ":" + IntToString(n.clientPort)
  }

  function HostsAndPorts(nodes: seq<Node>): (r: seq<string>)
    ensures |r| == |nodes|
    ensures forall i :: 0 <= i < |nodes| ==> r[i] == HostAndPort(nodes[i])
  {
    if |nodes| == 0 then [] else [HostAndPort(nodes[0])] + HostsAndPorts(nodes[1..])
  }

  /** The snapshot as a client connection string: `address:clientPort`
      entries joined by commas. */
  function GetConnectionString(p: Provider): (r: string)
    ensures |p.ensembleNodes| == 0 <==> r == ""
    ensures |p.ensembleNodes| > 0 ==> HostAndPort(p.ensembleNodes[0]) <= r
  {
    Join(',', HostsAndPorts(p.ensembleNodes))
  }

  /** Reads one `address:clientPort` entry back. */
  function ParseHostAndPort(entry: string): Option<(string, int)>
  {
    match SplitFirst(entry, ':')
    case None => None
    case Some(parts) =>
      match ParseInt(parts.1)
      case None => None
      case Some(port) => Some((parts.0, port))
  }

  /** The connection string lists every node, in order: splitting at commas
      and reading each entry recovers each address and client port. With no
      nodes it is empty. */
  lemma ConnectionStringRoundTrip(p: Provider)
    requires forall i :: 0 <= i < |p.ensembleNodes| ==>
               ',' !in p.ensembleNodes[i].address && ':' !in p.ensembleNodes[i].address
    ensures |p.ensembleNodes| == 0 ==> GetConnectionString(p) == ""
    ensures |p.ensembleNodes| > 0 ==>
              var entries := Split(GetConnectionString(p), ',');
              && |entries| == |p.ensembleNodes|
              && forall i :: 0 <= i < |entries| ==>
                   ParseHostAndPort(entries[i]) == Some((p.ensembleNodes[i].address, p.ensembleNodes[i].clientPort))
  {
    var nodes := p.ensembleNodes;
    var entries := HostsAndPorts(nodes);
    if |nodes| > 0 {
      forall i | 0 <= i < |entries|
        ensures ',' !in entries[i]
        ensures ParseHostAndPort(entries[i]) == Some((nodes[i].address, nodes[i].clientPort))
      {
        IntToStringHasNo(nodes[i].clientPort, ',');
        assert entries[i] == nodes[i].address + [':'] + IntToString(nodes[i].clientPort);
        SplitFirstConcat(nodes[i].address, ':', IntToString(nodes[i].clientPort));
        ParseIntToString(nodes[i].clientPort);
      }
      SplitJoin(',', entries);
    }
  }

  /** Setting a connection string is a no-op: the list is managed dynamically. */
  function SetConnectionString(p: Provider, connectionString: string): (p': Provider)
    ensures p'.ensembleNodes == p.ensembleNodes && p'.coordinatorAddress == p.coordinatorAddress
  {
    p
  }

  /** The provider always lets the client update its server list. */
  function UpdateServerListEnabled(p: Provider): (enabled: bool)
    ensures enabled
  {
    true
  }
}

=== FILE: node.dfy ===
/** The `Node` record: one member of the coordination ensemble. */
module Nodes {
  import opened Common

  const DefaultClientPort := 2181
  const DefaultQuorumPort := 2888
  const DefaultLeaderElectionPort := 3888

  /** A Java `Node` record. The id is a boxed `Integer` and may be null: the
      ensemble provider builds its nodes without one. */
  datatype Node = Node(
    id: Option<int>,
    address: string,
    clientPort: int,
    quorumPort: int,
    leaderElectionPort: int)

  /** The canonical constructor. */
  function NewNode(id: Option<int>, address: string, clientPort: int, quorumPort: int,
                   leaderElectionPort: int): (n: Node)
    ensures n.id == id && n.address == address
    ensures n.clientPort == clientPort && n.quorumPort == quorumPort
    ensures n.leaderElectionPort == leaderElectionPort
  {
    Node(id, address, clientPort, quorumPort, leaderElectionPort)
  }

  /** The two-argument constructor: the given id and address, with the
      standard client, quorum and leader-election ports. */
  function NodeWithDefaultPorts(id: Option<int>, address: string): (n: Node)
    ensures n.id == id && n.address == address
    ensures n.clientPort == 2181 && n.quorumPort == 2888 && n.leaderElectionPort == 3888
  {
    NewNode(id, address, DefaultClientPort, DefaultQuorumPort, DefaultLeaderElectionPort)
  }
}

=== FILE: state_accessor.dfy ===
/** The shared cluster state: the current hash (key) length, its local cache,
    the per-length claim counters, and the leader's growth decision.

    The store is an explicit map from counter path to value. As with a
    distributed atomic long, a counter whose node does not exist reads as 0,
    and incrementing it creates it with value 1. */
module StateAccessor {
  import opened Common
  import opened Text

  const HashLengthPath := "/state/hashLength"
  const CountPathPrefix := "/state/count/"

  /** Claim attempts per request that the growth model assumes. */
  const Limit := 10

  /** Size of the alphabet the growth model assumes (letters and digits). */
  const LetterOrDigitCount := 26 + 26 + 10

  /** The least acceptable probability of finding an unused key within `Limit` attempts. */
  const CollisionProbabilityThreshold: real := 0.9

  type Counters = map<string, int>

  /** One process's view: the store's counters and its cached hash length. */
  datatype State = State(counters: Counters, lengthCache: Option<int>)

  /** The outcome of one step and the state it leaves behind. */
  datatype Step<T> = Step(outcome: Result<T>, state: State)

  /** A counter's value; an absent counter reads as 0. */
  function Read(counters: Counters, path: string): int
  {
    if path in counters then counters[path] else 0
  }

  /** The hash length as held by the store. */
  function StoredHashLength(st: State): int
  {
    Read(st.counters, HashLengthPath)
  }

  /** The hash length a read without refresh returns: the cached value if
      there is one, else the store's. */
  function VisibleHashLength(st: State): int
  {
    if st.lengthCache.Some? then st.lengthCache.value else StoredHashLength(st)
  }

  // ---------------------------------------------------------------------------
  // Counter paths

  /** The path of the claim counter for keys of length `n`. */
  function CountPath(n: int): string
  {
    CountPathPrefix + IntToString(n)
  }

  /** Different lengths have different counters, none of them the hash length. */
  lemma CountPathsDistinct(a: int, b: int)
    ensures CountPath(a) == CountPath(b) ==> a == b
    ensures CountPath(a) != HashLengthPath
  {
    if CountPath(a) == CountPath(b) {
      assert IntToString(a) == CountPath(a)[|CountPathPrefix|..];
      assert IntToString(b) == CountPath(b)[|CountPathPrefix|..];
      IntToStringInjective(a, b);
    }
    assert CountPath(a)[7] == 'c' && HashLengthPath[7] == 'h';
  }

  /** The number of keys claimed at length `n`; a length nobody has
      counted yet reads as 0. */
  function GetCountForLength(counters: Counters, n: int): (count: int)
    ensures CountPath(n) !in counters ==> count == 0
    ensures CountPath(n) in counters ==> count == counters[CountPath(n)]
  {
    Read(counters, CountPath(n))
  }

  // ---------------------------------------------------------------------------
  // Initialisation and the cached read

  /** Sets the hash length to 1 unless the store already holds one. */
  function Initialize(counters: Counters): (r: Counters)
    ensures HashLengthPath in r
    ensures HashLengthPath in counters ==> r[HashLengthPath] == counters[HashLengthPath]
    ensures HashLengthPath !in counters ==> r[HashLengthPath] == 1
    ensures forall p :: p != HashLengthPath ==> Read(r, p) == Read(counters, p)
    ensures r.Keys == counters.Keys + {HashLengthPath}
  {
    if HashLengthPath in counters then counters else counters[HashLengthPath := 1]
  }

  /** Initialising twice is initialising once. */
  lemma InitializeIdempotent(counters: Counters)
    ensures Initialize(Initialize(counters)) == Initialize(counters)
  {
  }

  /** The current hash length: a forced refresh drops the cached value first;
      a missing cache entry is loaded from the store and kept. */
  function GetCurrentHashLength(st: State, forceRefresh: bool): (r: (int, State))
    ensures r.1.counters == st.counters
    ensures r.1.lengthCache == Some(r.0)
    ensures forceRefresh || st.lengthCache.None? ==> r.0 == StoredHashLength(st)
    ensures !forceRefresh && st.lengthCache.Some? ==> r.0 == st.lengthCache.value
  {
    var cache := if forceRefresh then None else st.lengthCache;
    match cache
    case Some(v) => (v, st)
    case None =>
      var v := StoredHashLength(st);
      (v, st.(lengthCache := Some(v)))
  }

  /** A forced refresh never returns a stale cached length. */
  lemma ForceRefreshReadsStore(st: State)
    ensures GetCurrentHashLength(st, true).0 == StoredHashLength(st)
    ensures GetCurrentHashLength(st, true).1.counters == st.counters
  {
  }

  // ---------------------------------------------------------------------------
  // Increment with retry

  /** The store's answer to one increment attempt. */
  datatype Reply = Committed | NotCommitted | Raised

  /** How the store answers successive increment attempts on one path: the
      first `conflicts` attempts do not commit, the next one commits, or
      raises when `raises` holds. */
  datatype CasReplies = CasReplies(conflicts: nat, raises: bool) {
    function At(attempt: nat): Reply
    {
      if attempt < conflicts then NotCommitted
      else if raises then Raised
      else Committed
    }
  }

  /** What an increment of `path` achieves once the store stops reporting
      conflicts: +1 on that one counter, or the store's exception and no change. */
  function IncrementEffect(counters: Counters, path: string, replies: CasReplies): (r: (Result<bool>, Counters))
    ensures r.0.Ok? <==> !replies.raises
    ensures r.0.Ok? ==> r.0.value && path in r.1 && r.1[path] == Read(counters, path) + 1
    ensures r.0.Ok? ==> forall p :: p != path ==> Read(r.1, p) == Read(counters, p)
    ensures r.0.Ok? ==> r.1.Keys == counters.Keys + {path}
    ensures r.0.Err? ==> r.0.error == StoreFailure && r.1 == counters
  {
    if replies.raises then (Err(StoreFailure), counters)
    else (Ok(true), counters[path := Read(counters, path) + 1])
  }

  /** The retry loop: attempt the increment until the store reports that it
      committed; an exception from the store ends the loop and propagates. */
  method Increment(counters: Counters, path: string, replies: CasReplies)
    returns (r: Result<bool>, counters': Counters, attempts: nat)
    ensures attempts == replies.conflicts + 1
    ensures (r, counters') == IncrementEffect(counters, path, replies)
  {
    var updatePending := true;
    attempts := 0;
    r := Ok(true);
    counters' := counters;
    while updatePending
      invariant attempts <= replies.conflicts + 1
      invariant updatePending ==> attempts <= replies.conflicts && counters' == counters
      invariant !updatePending ==> attempts == replies.conflicts + 1 && !replies.raises
      invariant !updatePending ==> counters' == counters[path := Read(counters, path) + 1]
      decreases replies.conflicts + 1 - attempts
    {
      var reply := replies.At(attempts);
      attempts := attempts + 1;
      match reply
      case Raised =>
        r := Err(StoreFailure);
        return;
      case NotCommitted =>
      case Committed =>
        counters' := counters[path := Read(counters, path) + 1];
        updatePending := false;
    }
  }

  /** Records one more claimed key of length `n`. */
  function IncrementCountForLength(st: State, n: int, replies: CasReplies): (r: Step<()>)
    ensures r.state.lengthCache == st.lengthCache
    ensures r.outcome.Ok? <==> !replies.raises
    ensures r.outcome.Ok? ==> GetCountForLength(r.state.counters, n) == GetCountForLength(st.counters, n) + 1
    ensures forall p :: p != CountPath(n) ==> Read(r.state.counters, p) == Read(st.counters, p)
    ensures r.outcome.Err? ==> r.outcome.error == StoreFailure && r.state == st
  {
    var (res, counters) := IncrementEffect(st.counters, CountPath(n), replies);
    match res
    case Ok(_) => Step(Ok(()), st.(counters := counters))
    case Err(e) => Step(Err(e), st)
  }

  /** Counting a claim at one length leaves every other length's count and the
      hash length alone. */
  lemma IncrementCountTouchesOneLength(st: State, n: int, m: int, replies: CasReplies)
    requires m != n
    ensures GetCountForLength(IncrementCountForLength(st, n, replies).state.counters, m)
         == GetCountForLength(st.counters, m)
    ensures StoredHashLength(IncrementCountForLength(st, n, replies).state) == StoredHashLength(st)
  {
    CountPathsDistinct(m, n);
    CountPathsDistinct(n, m);
  }

  /** Grows the stored hash length by one and drops the cached value. */
  function IncrementHashLength(st: State, replies: CasReplies): (r: Step<bool>)
    ensures r.outcome.Ok? <==> !replies.raises
    ensures r.outcome.Ok? ==> r.outcome.value
    ensures r.outcome.Ok? ==> StoredHashLength(r.state) == StoredHashLength(st) + 1 && r.state.lengthCache.None?
    ensures forall p :: p != HashLengthPath ==> Read(r.state.counters, p) == Read(st.counters, p)
    ensures r.outcome.Err? ==> r.outcome.error == StoreFailure && r.state == st
  {
    var (res, counters) := IncrementEffect(st.counters, HashLengthPath, replies);
    match res
    case Ok(b) => Step(Ok(b), State(counters, None))
    case Err(e) => Step(Err(e), st)
  }

  /** After growth the next plain read returns the store's new length. */
  lemma ReadAfterGrowthIsFresh(st: State, replies: CasReplies)
    requires !replies.raises
    ensures var st' := IncrementHashLength(st, replies).state;
            GetCurrentHashLength(st', false).0 == StoredHashLength(st) + 1
  {
  }

  // ---------------------------------------------------------------------------
  // The growth decision

  /** `b` to the power `e`, exactly. */
  function RealPow(b: real, e: nat): (r: real)
    ensures b > 0.0 ==> r > 0.0
    ensures b >= 0.0 ==> r >= 0.0
  {
    if e == 0 then 1.0 else b * RealPow(b, e - 1)
  }

  /** `Math.pow(b, e)` for an integer exponent, without rounding. */
  function PowInt(b: real, e: int): (r: real)
    requires b > 0.0
    ensures r > 0.0
  {
    if e >= 0 then RealPow(b, e) else 1.0 / RealPow(b, -e)
  }

  function IntPow(b: int, e: nat): int
  {
    if e == 0 then 1 else b * IntPow(b, e - 1)
  }

  /** The probability that `Limit` independent candidates of length `length`
      are not all taken when `count` keys of that length exist, computed
      exactly. It is a probability whenever the count does not exceed the
      number of possible keys, and certainty when no key is taken. */
  function ProbOfFindingAnUnusedHash(count: int, length: int): (p: real)
    ensures count >= 0 ==> p <= 1.0
    ensures 0 <= count && count as real <= PowInt(LetterOrDigitCount as real, length) ==> 0.0 <= p
    ensures count == 0 ==> p == 1.0
  {
    var totalPossibleHashes := PowInt(LetterOrDigitCount as real, length);
    var collisionProbabilityForOneAttempt := count as real / totalPossibleHashes;
    RealPowAtMostOne(collisionProbabilityForOneAttempt, Limit);
    ZeroPow(Limit);
    1.0 - RealPow(collisionProbabilityForOneAttempt, Limit)
  }

  /** The leader grows the key length when that probability drops below the
      threshold; with no key taken it never does. */
  function ShouldGrow(count: int, length: int): (b: bool)
    ensures count == 0 ==> !b
  {
    ProbOfFindingAnUnusedHash(count, length) < CollisionProbabilityThreshold
  }

  /** A power of a number in [0, 1] stays in [0, 1]. */
  lemma {:induction false} RealPowAtMostOne(x: real, n: nat)
    ensures 0.0 <= x <= 1.0 ==> RealPow(x, n) <= 1.0
  {
    if n > 0 && 0.0 <= x <= 1.0 {
      RealPowAtMostOne(x, n - 1);
      ProductMonotone(x, 1.0, RealPow(x, n - 1), 1.0);
    }
  }

  lemma {:induction false} RealPowOfInt(x: int, n: nat)
    ensures RealPow(x as real, n) == IntPow(x, n) as real
  {
    if n > 0 {
      RealPowOfInt(x, n - 1);
    }
  }

  lemma ProductOfQuotients(a: real, b: real, x: real, y: real)
    requires b > 0.0 && y > 0.0
    ensures (a / b) * (x / y) == (a * x) / (b * y)
  {
    var q1, q2 := a / b, x / y;
    assert q1 * b == a;
    assert q2 * y == x;
    calc {
      (q1 * q2) * (b * y);
      (q1 * b) * (q2 * y);
      a * x;
    }
    var d := b * y;
    assert d > 0.0;
    var r := q1 * q2;
    assert r * d == a * x;
    assert r == (a * x) / d;
  }

  lemma {:induction false} RealPowOfQuotient(a: real, b: real, n: nat)
    requires b > 0.0
    ensures RealPow(a / b, n) == RealPow(a, n) / RealPow(b, n)
  {
    if n > 0 {
      RealPowOfQuotient(a, b, n - 1);
      var x, y := RealPow(a, n - 1), RealPow(b, n - 1);
      ProductOfQuotients(a, b, x, y);
      assert RealPow(a, n) == a * x && RealPow(b, n) == b * y;
    }
  }

  lemma {:induction false} IntPowAdd(b: int, m: nat, n: nat)
    ensures IntPow(b, m + n) == IntPow(b, m) * IntPow(b, n)
    decreases n
  {
    if n > 0 {
      IntPowAdd(b, m, n - 1);
      assert IntPow(b, m + n) == b * IntPow(b, m + n - 1);
    }
  }

  lemma {:induction false} IntPowMul(b: int, m: nat, n: nat)
    ensures IntPow(IntPow(b, m), n) == IntPow(b, m * n)
    decreases n
  {
    if n > 0 {
      IntPowMul(b, m, n - 1);
      IntPowAdd(b, m, m * (n - 1));
      assert m * n == m + m * (n - 1);
    }
  }

  lemma ProductMonotone(x: real, y: real, a: real, b: real)
    requires 0.0 <= x <= y && 0.0 <= a <= b
    ensures x * a <= y * b
  {
    assert (y - x) * a >= 0.0;
    assert y * (b - a) >= 0.0;
  }

  lemma {:induction false} RealPowMonotone(x: real, y: real, n: nat)
    requires 0.0 <= x <= y
    ensures RealPow(x, n) <= RealPow(y, n)
  {
    if n > 0 {
      RealPowMonotone(x, y, n - 1);
      ProductMonotone(x, y, RealPow(x, n - 1), RealPow(y, n - 1));
    }
  }

  /** The growth test compares the chance that every attempt collides with
      one tenth. */
  lemma ShouldGrowAsAllCollide(count: int, length: int)
    ensures var p := RealPow(count as real / PowInt(LetterOrDigitCount as real, length), Limit);
            ShouldGrow(count, length) <==> p > 0.1
  {
  }

  lemma QuotientAboveTenth(p: real, q: real)
    requires q > 0.0
    ensures p / q > 0.1 <==> 10.0 * p > q
  {
    var r := p / q;
    assert r * q == p;
    if r > 0.1 {
      assert (r - 0.1) * q > 0.0;
    } else {
      assert (0.1 - r) * q >= 0.0;
    }
  }

  /** The growth test in integers, free of division:
      grow exactly when `10 * count^10 > 62^(10 * length)`. */
  lemma ShouldGrowIntegerForm(count: int, length: nat)
    ensures ShouldGrow(count, length) <==> 10 * IntPow(count, Limit) > IntPow(LetterOrDigitCount, Limit * length)
  {
    var t := IntPow(LetterOrDigitCount, length);
    var total := PowInt(LetterOrDigitCount as real, length);
    RealPowOfInt(LetterOrDigitCount, length);
    assert total == t as real;
    RealPowOfQuotient(count as real, total, Limit);
    RealPowOfInt(count, Limit);
    RealPowOfInt(t, Limit);
    IntPowMul(LetterOrDigitCount, length, Limit);
    assert length * Limit == Limit * length;
    var c10, t10 := IntPow(count, Limit), IntPow(t, Limit);
    assert RealPow(count as real / total, Limit) == c10 as real / t10 as real;
    ShouldGrowAsAllCollide(count, length);
    QuotientAboveTenth(c10 as real, t10 as real);
  }

  /** An empty length never triggers growth. */
  lemma EmptyNeverGrows(length: int)
    ensures !ShouldGrow(0, length)
  {
  }

  lemma {:induction false} ZeroPow(n: nat)
    requires n > 0
    ensures RealPow(0.0, n) == 0.0
  {
  }

  /** More keys never make growth less likely. */
  lemma ShouldGrowMonotone(c1: int, c2: int, length: int)
    requires 0 <= c1 <= c2
    requires ShouldGrow(c1, length)
    ensures ShouldGrow(c2, length)
  {
    var total := PowInt(LetterOrDigitCount as real, length);
    assert c1 as real / total <= c2 as real / total;
    RealPowMonotone(c1 as real / total, c2 as real / total, Limit);
  }

  /** At length 1 the leader grows once at least 50 of the 62 keys are taken. */
  lemma GrowthThresholdAtLengthOne(count: int)
    requires count >= 0
    ensures ShouldGrow(count, 1) <==> count >= 50
  {
    ShouldGrowIntegerForm(49, 1);
    ShouldGrowIntegerForm(50, 1);
    assert IntPow(49, 10) == 79792266297612001 by { IntPowTen(49); }
    assert IntPow(50, 10) == 97656250000000000 by { IntPowTen(50); }
    assert IntPow(62, 10) == 839299365868340224 by { IntPowTen(62); }
    if count >= 50 {
      ShouldGrowMonotone(50, count, 1);
    } else if ShouldGrow(count, 1) {
      ShouldGrowMonotone(count, 49, 1);
    }
  }

  /** 55 keys of length 1 leave about a 0.716 chance of finding a free key
      in 10 attempts, so the leader grows the length. */
  lemma FiftyFiveAtLengthOneGrows()
    ensures ShouldGrow(55, 1)
  {
    GrowthThresholdAtLengthOne(55);
  }

  lemma IntPowTen(b: int)
    ensures IntPow(b, 10) == b * b * b * b * b * b * b * b * b * b
  {
    assert IntPow(b, 1) == b;
    assert IntPow(b, 2) == b * b;
    assert IntPow(b, 3) == b * b * b;
    assert IntPow(b, 4) == b * b * b * b;
    assert IntPow(b, 5) == b * b * b * b * b;
    IntPowAdd(b, 5, 5);
  }

  // ---------------------------------------------------------------------------
  // The control loop

  /** One pass of the control loop. A follower does nothing. The leader reads
      the (possibly cached) length and that length's count, and grows the
      stored length when the growth test says so. The outcome says whether it
      grew; an exception ends the loop. */
  function Tick(st: State, isLeader: bool, replies: CasReplies): (r: Step<bool>)
    ensures !isLeader ==> r == Step(Ok(false), st)
    ensures StoredHashLength(r.state) == StoredHashLength(st) || StoredHashLength(r.state) == StoredHashLength(st) + 1
    ensures isLeader ==> (r.outcome == Ok(true) <==>
                           ShouldGrow(GetCountForLength(st.counters, VisibleHashLength(st)), VisibleHashLength(st))
                           && !replies.raises)
    ensures r.outcome.Err? <==>
              isLeader && ShouldGrow(GetCountForLength(st.counters, VisibleHashLength(st)), VisibleHashLength(st))
              && replies.raises
    ensures r.outcome.Err? ==> r.outcome.error == StoreFailure
    ensures r.outcome == Ok(true) ==> StoredHashLength(r.state) == StoredHashLength(st) + 1
    ensures r.outcome != Ok(true) ==> r.state.counters == st.counters
    ensures forall p :: p != HashLengthPath ==> Read(r.state.counters, p) == Read(st.counters, p)
  {
    if !isLeader then Step(Ok(false), st)
    else
      var (currentHashLength, st1) := GetCurrentHashLength(st, false);
      var currentCount := GetCountForLength(st1.counters, currentHashLength);
      if ShouldGrow(currentCount, currentHashLength) then
        IncrementHashLength(st1, replies)
      else
        Step(Ok(false), st1)
  }

  /** One loop iteration's inputs: whether this process holds leadership, and
      how the store answers if the leader increments. */
  datatype TickInput = TickInput(isLeader: bool, replies: CasReplies)

  /** The control loop over a sequence of iterations; it stops at the first
      exception. Only the hash length moves, and by at most one per
      iteration, never down. */
  function Run(st: State, ticks: seq<TickInput>): (r: State)
    ensures StoredHashLength(st) <= StoredHashLength(r) <= StoredHashLength(st) + |ticks|
    ensures forall p :: p != HashLengthPath ==> Read(r.counters, p) == Read(st.counters, p)
    decreases |ticks|
  {
    if |ticks| == 0 then st
    else
      var step := Tick(st, ticks[0].isLeader, ticks[0].replies);
      if step.outcome.Err? then step.state else Run(step.state, ticks[1..])
  }

  /** A tick whose increment raises ends the loop: whatever iterations would
      follow, the run leaves the state that tick left. */
  lemma RunStopsAtException(st: State, t: TickInput, rest: seq<TickInput>)
    requires Tick(st, t.isLeader, t.replies).outcome.Err?
    ensures Run(st, [t] + rest) == Tick(st, t.isLeader, t.replies).state
    ensures Run(st, [t] + rest) == Run(st, [t])
  {
    assert ([t] + rest)[0] == t;
  }

  /** With 55 keys claimed at length 1, a leader tick whose increment raises
      ends the loop, so a later tick that would commit never grows the
      length: it stays 1. */
  lemma RaisingTickEndsRun()
    ensures var st := State(map[CountPath(1) := 55, HashLengthPath := 1], None);
            var ticks := [TickInput(true, CasReplies(0, true)), TickInput(true, CasReplies(0, false))];
            StoredHashLength(Run(st, ticks)) == 1
  {
    var st := State(map[CountPath(1) := 55, HashLengthPath := 1], None);
    var t := TickInput(true, CasReplies(0, true));
    CountPathsDistinct(1, 1);
    assert VisibleHashLength(st) == 1;
    assert GetCountForLength(st.counters, 1) == 55;
    FiftyFiveAtLengthOneGrows();
    RunStopsAtException(st, t, [TickInput(true, CasReplies(0, false))]);
  }

  /** A process that never holds leadership never changes any state. */
  lemma {:induction false} FollowerRunChangesNothing(st: State, ticks: seq<TickInput>)
    requires forall i :: 0 <= i < |ticks| ==> !ticks[i].isLeader
    ensures Run(st, ticks) == st
    decreases |ticks|
  {
    if |ticks| > 0 {
      FollowerRunChangesNothing(st, ticks[1..]);
    }
  }
}

=== FILE: text.dfy ===
/** The string handling the modelled Java code relies on: decimal rendering of
    integers (string concatenation and `%d`), the index of a separator, and
    joining and splitting on a separator character. Each rendering comes with
    the parser that undoes it. */
module Text {
  import opened Common

  predicate IsDigit(c: char) {
    '0' <= c <= '9'
  }

  predicate AllDigits(s: string) {
    forall i :: 0 <= i < |s| ==> IsDigit(s[i])
  }

  function DigitChar(d: nat): (c: char)
    requires d < 10
    ensures IsDigit(c)
  {
    "0123456789"[d]
  }

  function DigitValue(c: char): (d: nat)
    requires IsDigit(c)
    ensures d < 10
  {
    (c as int) - ('0' as int)
  }

  /** Decimal rendering of a natural number, without leading zeros. */
  function NatToString(n: nat): (s: string)
    ensures |s| > 0 && AllDigits(s)
    decreases n
  {
    if n < 10 then [DigitChar(n)] else NatToString(n / 10) + [DigitChar(n % 10)]
  }

  /** Java's `Integer.toString` / `Long.toString`: a minus sign, then the digits. */
  function IntToString(i: int): (s: string)
  {
    if i < 0 then "-" + NatToString(-i) else NatToString(i)
  }

  /** The value of a string of decimal digits, most significant first. */
  function DigitsValue(s: string): nat
    requires AllDigits(s)
  {
    if |s| == 0 then 0 else DigitsValue(s[..|s| - 1]) * 10 + DigitValue(s[|s| - 1])
  }

  /** A non-empty run of decimal digits, read as a natural number. */
  function ParseNat(s: string): Option<nat>
  {
    if |s| > 0 && AllDigits(s) then Some(DigitsValue(s)) else None
  }

  /** An optional minus sign followed by a non-empty run of decimal digits. */
  function ParseInt(s: string): Option<int>
  {
    if |s| > 0 && s[0] == '-' then
      match ParseNat(s[1..])
      case Some(n) => Some(-(n as int))
      case None => None
    else
      match ParseNat(s)
      case Some(n) => Some(n)
      case None => None
  }

  lemma DigitRoundTrip(d: nat)
    requires d < 10
    ensures DigitValue(DigitChar(d)) == d
  {
  }

  /** Parsing undoes rendering for every natural number. */
  lemma {:induction false} ParseNatToString(n: nat)
    ensures ParseNat(NatToString(n)) == Some(n)
    decreases n
  {
    DigitRoundTrip(n % 10);
    if n < 10 {
      var s := NatToString(n);
      assert s == [DigitChar(n)];
      assert DigitsValue(s) == DigitsValue([]) * 10 + DigitValue(DigitChar(n));
    } else {
      var s := NatToString(n);
      assert s[..|s| - 1] == NatToString(n / 10);
      assert s[|s| - 1] == DigitChar(n % 10);
      ParseNatToString(n / 10);
      assert DigitsValue(s) == (n / 10) * 10 + n % 10;
    }
  }

  /** Parsing undoes rendering for every integer, the sign included. */
  lemma ParseIntToString(i: int)
    ensures ParseInt(IntToString(i)) == Some(i)
  {
    if i < 0 {
      ParseNatToString(-i);
      assert IntToString(i)[1..] == NatToString(-i);
    } else {
      ParseNatToString(i);
    }
  }

  /** Distinct integers render to distinct strings. */
  lemma IntToStringInjective(a: int, b: int)
    ensures IntToString(a) == IntToString(b) ==> a == b
  {
    ParseIntToString(a);
    ParseIntToString(b);
  }

  lemma NatToStringHasNo(n: nat, c: char)
    requires !IsDigit(c)
    ensures c !in NatToString(n)
  {
  }

  lemma IntToStringHasNo(i: int, c: char)
    requires !IsDigit(c) && c != '-'
    ensures c !in IntToString(i)
  {
    NatToStringHasNo(if i < 0 then -i else i, c);
  }

  /** The index of the first `c` in `s`, or `|s|` when there is none. */
  function IndexOf(s: string, c: char): (k: nat)
    ensures k <= |s|
    ensures c !in s[..k]
    ensures k < |s| ==> s[k] == c
  {
    if |s| == 0 then 0
    else if s[0] == c then 0
    else
      var k := 1 + IndexOf(s[1..], c);
      assert s[..k] == [s[0]] + s[1..][..k - 1];
      k
  }

  /** The text before the first `c` and the text after it; None when `s` has no `c`. */
  function SplitFirst(s: string, c: char): (r: Option<(string, string)>)
    ensures r.None? <==> c !in s
    ensures r.Some? ==> c !in r.value.0 && s == r.value.0 + [c] + r.value.1
  {
    var k := IndexOf(s, c);
    if k == |s| then
      assert s[..k] == s;
      None
    else
      assert s == s[..k] + [c] + s[k + 1..];
      Some((s[..k], s[k + 1..]))
  }

  lemma {:induction false} IndexOfConcat(a: string, c: char, b: string)
    requires c !in a
    ensures IndexOf(a + [c] + b, c) == |a|
    decreases |a|
  {
    var s := a + [c] + b;
    if |a| > 0 {
      assert s[0] == a[0] && s[1..] == a[1..] + [c] + b;
      IndexOfConcat(a[1..], c, b);
    }
  }

  /** The split is determined by the separator's first occurrence. */
  lemma SplitFirstConcat(a: string, c: char, b: string)
    requires c !in a
    ensures SplitFirst(a + [c] + b, c) == Some((a, b))
  {
    var s := a + [c] + b;
    IndexOfConcat(a, c, b);
    assert s[..|a|] == a && s[|a| + 1..] == b;
  }

  /** Java's `String.join`: the parts with `sep` between neighbours. */
  function Join(sep: char, parts: seq<string>): string
  {
    if |parts| == 0 then ""
    else if |parts| == 1 then parts[0]
    else parts[0] + [sep] + Join(sep, parts[1..])
  }

  /** Every maximal piece of `s` between separators, empty pieces kept. */
  function Split(s: string, sep: char): (parts: seq<string>)
    ensures |parts| > 0
    ensures forall i :: 0 <= i < |parts| ==> sep !in parts[i]
    decreases |s|
  {
    match SplitFirst(s, sep)
    case None => [s]
    case Some(p) => [p.0] + Split(p.1, sep)
  }

  /** Splitting undoes joining when no part contains the separator. */
  lemma {:induction false} SplitJoin(sep: char, parts: seq<string>)
    requires |parts| > 0
    requires forall i :: 0 <= i < |parts| ==> sep !in parts[i]
    ensures Split(Join(sep, parts), sep) == parts
    decreases |parts|
  {
    if |parts| == 1 {
    } else {
      SplitFirstConcat(parts[0], sep, Join(sep, parts[1..]));
      SplitJoin(sep, parts[1..]);
    }
  }
}

=== FILE: url_accessor.dfy ===
/** Short-key allocation: candidate keys are prefixes of the SHA-256 digest of
    the url with the attempt number appended, claimed by an atomic
    create-if-absent in the store. */
module UrlAccessor {
  import opened Common
  import opened Text
  import StateAccessor

  /** Claim attempts per request. */
  const Limit := 10

  /** A lower-case hexadecimal digit. */
  predicate IsHexChar(c: char) {
    '0' <= c <= '9' || 'a' <= c <= 'f'
  }

  /** A lower-case hexadecimal digit, as a type. */
  type HexChar = c: char | IsHexChar(c) witness '0'

  /** A lower-case hex rendering of a 256-bit digest. */
  type Digest = d: seq<HexChar> | |d| == 64 witness seq(64, i => '0')

  /** SHA-256 of the UTF-8 encoding of its input, rendered in hex. The model
      treats it as an arbitrary function with 64 hex characters of output. */
  type Sha256Hex = string -> Digest

  /** The stored url mappings: short key to original url. The store path of
      key `k` is `"/urls/" + k`. */
  type Urls = map<string, string>

  /** A process's whole view: the url mappings and the shared counters. */
  datatype Shortener = Shortener(urls: Urls, state: StateAccessor.State)

  /** The candidate for attempt `n`: the first `length` hex digits of the
      digest of the url followed by `n`. `substring` rejects a length outside
      the digest. */
  function Hash(sha256: Sha256Hex, url: string, n: int, length: int): (r: Result<string>)
    ensures r.Ok? <==> 0 <= length <= 64
    ensures r.Err? ==> r.error == IndexOutOfBounds
    ensures r.Ok? ==> |r.value| == length && r.value <= sha256(url + IntToString(n))
    ensures r.Ok? ==> forall i :: 0 <= i < |r.value| ==> IsHexChar(r.value[i])
  {
    var sha256hex := sha256(url + IntToString(n));
    if 0 <= length <= |sha256hex| then Ok(sha256hex[..length]) else Err(IndexOutOfBounds)
  }

  // ---------------------------------------------------------------------------
  // Store paths

  /** A character ZooKeeper accepts in a path: not NUL, not a control
      character, not in the surrogate and private-use range and not in the
      specials block. A character beyond the basic plane is a surrogate pair
      in a Java string, so it is refused as well. */
  predicate PathChar(c: char) {
    var v := c as int;
    !(v <= 0x1f || 0x7f <= v <= 0x9f || 0xd800 <= v <= 0xf8ff || 0xfff0 <= v)
  }

  /** A node name ZooKeeper accepts between two '/': non-empty and not a
      relative step. */
  predicate NodeName(name: string) {
    name != "" && name != "." && name != ".."
  }

  /** Whether ZooKeeper's path validation accepts the path "/urls/" + key:
      every character is allowed and every '/'-separated name of the key is
      a node name. The empty key leaves the path ending in '/', which the
      empty last name rules out, and so do "//" and a trailing '/'. */
  predicate ValidKeyPath(key: string) {
    && (forall i :: 0 <= i < |key| ==> PathChar(key[i]))
    && var names := Split(key, '/');
       forall i :: 0 <= i < |names| ==> NodeName(names[i])
  }

  /** The empty key's path "/urls/" is refused. */
  lemma EmptyKeyPathInvalid()
    ensures !ValidKeyPath("")
  {
    assert Split("", '/') == [""];
    assert !NodeName(Split("", '/')[0]);
  }

  /** Every candidate key of positive length names a valid path: hex digits
      contain no '/', '.' or refused character. */
  lemma HexKeyPathValid(key: string)
    requires |key| > 0
    requires forall i :: 0 <= i < |key| ==> IsHexChar(key[i])
    ensures ValidKeyPath(key)
  {
    assert '/' !in key;
    assert SplitFirst(key, '/') == None;
    assert Split(key, '/') == [key];
    assert key[0] != '.';
  }

  // ---------------------------------------------------------------------------
  // Creating and reading mappings

  /** The answer to one create-if-absent, and the mappings afterwards. */
  datatype Persist = Persist(created: Result<bool>, urls: Urls)

  /** Creates the mapping unless the key is taken. A path the store refuses
      fails before anything is sent; `storeFails` says whether the store then
      answers with an error other than "node exists" (a lost connection, say),
      which is raised. A taken key answers false. Only a creation changes the
      mappings. */
  function AtomicCheckAndPersist(urls: Urls, shortenedUrl: string, originalUrl: string,
                                 storeFails: bool): (r: Persist)
    ensures r.created == Ok(true) <==> ValidKeyPath(shortenedUrl) && !storeFails && shortenedUrl !in urls
    ensures r.created == Ok(false) <==> ValidKeyPath(shortenedUrl) && !storeFails && shortenedUrl in urls
    ensures r.created == Err(InvalidPath) <==> !ValidKeyPath(shortenedUrl)
    ensures r.created == Err(StoreFailure) <==> ValidKeyPath(shortenedUrl) && storeFails
    ensures r.created == Ok(true) ==> r.urls.Keys == urls.Keys + {shortenedUrl} && r.urls[shortenedUrl] == originalUrl
    ensures r.created == Ok(true) ==> forall k :: k in urls ==> r.urls[k] == urls[k]
    ensures r.created != Ok(true) ==> r.urls == urls
  {
    if !ValidKeyPath(shortenedUrl) then Persist(Err(InvalidPath), urls)
    else if storeFails then Persist(Err(StoreFailure), urls)
    else if shortenedUrl in urls then Persist(Ok(false), urls)
    else Persist(Ok(true), urls[shortenedUrl := originalUrl])
  }

  /** The stored url for a key: None (null) when the key is not claimed, and
      InvalidPath when the store refuses the key's path, the empty key
      included. */
  function GetOriginalUrl(urls: Urls, shortenedUrl: string): (r: Result<Option<string>>)
    ensures r.Err? <==> !ValidKeyPath(shortenedUrl)
    ensures r.Err? ==> r.error == InvalidPath
    ensures r.Ok? ==> (r.value.Some? <==> shortenedUrl in urls)
    ensures r.Ok? && r.value.Some? ==> r.value.value == urls[shortenedUrl]
  {
    if !ValidKeyPath(shortenedUrl) then Err(InvalidPath)
    else if shortenedUrl in urls then Ok(Some(urls[shortenedUrl]))
    else Ok(None)
  }

  /** A created mapping reads back as its url, and every other key reads as
      it did before. */
  lemma GetAfterPersist(urls: Urls, shortenedUrl: string, originalUrl: string, other: string)
    requires AtomicCheckAndPersist(urls, shortenedUrl, originalUrl, false).created == Ok(true)
    ensures var urls' := AtomicCheckAndPersist(urls, shortenedUrl, originalUrl, false).urls;
            && GetOriginalUrl(urls', shortenedUrl) == Ok(Some(originalUrl))
            && (other != shortenedUrl ==> GetOriginalUrl(urls', other) == GetOriginalUrl(urls, other))
  {
  }

  // ---------------------------------------------------------------------------
  // The attempts of a claim

  /** The candidate keys of attempts n .. Limit - 1, in order. */
  function CandidatesFrom(sha256: Sha256Hex, url: string, length: int, n: nat): (c: seq<string>)
    requires 0 <= length <= 64 && n <= Limit
    ensures |c| == Limit - n
    decreases Limit - n
  {
    if n == Limit then [] else [Hash(sha256, url, n, length).value] + CandidatesFrom(sha256, url, length, n + 1)
  }

  /** The candidate keys of all attempts, in order. */
  function Candidates(sha256: Sha256Hex, url: string, length: int): (c: seq<string>)
    requires 0 <= length <= 64
    ensures |c| == Limit
  {
    CandidatesFrom(sha256, url, length, 0)
  }

  lemma {:induction false} CandidateFromIsHash(sha256: Sha256Hex, url: string, length: int, n: nat, k: nat)
    requires 0 <= length <= 64 && n <= k < Limit
    ensures Hash(sha256, url, k, length) == Ok(CandidatesFrom(sha256, url, length, n)[k - n])
    decreases k - n
  {
    if n < k {
      CandidateFromIsHash(sha256, url, length, n + 1, k);
    }
  }

  /** Candidate k is the hash of attempt k. */
  lemma CandidateIsHash(sha256: Sha256Hex, url: string, length: int, k: nat)
    requires 0 <= length <= 64 && k < Limit
    ensures Hash(sha256, url, k, length) == Ok(Candidates(sha256, url, length)[k])
  {
    CandidateFromIsHash(sha256, url, length, 0, k);
  }

  /** The first attempt, from `from` on, whose candidate is free; the number
      of candidates when every remaining one is taken. This is the reference
      the attempt loop is measured against. */
  function FirstFree(urls: Urls, candidates: seq<string>, from: nat): (j: nat)
    requires from <= |candidates|
    ensures from <= j <= |candidates|
    ensures forall k :: from <= k < j ==> candidates[k] in urls
    ensures j < |candidates| ==> candidates[j] !in urls
    decreases |candidates| - from
  {
    if from == |candidates| then from
    else if candidates[from] !in urls then from
    else FirstFree(urls, candidates, from + 1)
  }

  /** How the attempts of a claim end. */
  datatype AttemptsEnd = Created(attempt: nat) | CreateFailed | Exhausted

  /** Attempts n, n + 1, ... of a claim: a create the store fails ends them,
      a taken candidate moves on to the next attempt, and the first free
      candidate is created. `createFailsAt` is the attempt, if any, whose
      create the store answers with an error other than "node exists". */
  function Attempts(urls: Urls, candidates: seq<string>, createFailsAt: Option<nat>, n: nat): (e: AttemptsEnd)
    requires n <= |candidates|
    ensures e.Created? ==> n <= e.attempt < |candidates| && candidates[e.attempt] !in urls
    ensures e.CreateFailed? ==> createFailsAt.Some? && n <= createFailsAt.value < |candidates|
    decreases |candidates| - n
  {
    if n == |candidates| then Exhausted
    else if createFailsAt == Some(n) then CreateFailed
    else if candidates[n] !in urls then Created(n)
    else Attempts(urls, candidates, createFailsAt, n + 1)
  }

  /** A created candidate is the first free one. */
  lemma {:induction false} AttemptsCreateFirstFree(urls: Urls, candidates: seq<string>, createFailsAt: Option<nat>, n: nat)
    requires n <= |candidates|
    ensures Attempts(urls, candidates, createFailsAt, n).Created? ==>
              Attempts(urls, candidates, createFailsAt, n).attempt == FirstFree(urls, candidates, n)
    decreases |candidates| - n
  {
    if n < |candidates| && createFailsAt != Some(n) && candidates[n] in urls {
      AttemptsCreateFirstFree(urls, candidates, createFailsAt, n + 1);
    }
  }

  /** The attempts give up exactly when no remaining create fails and every
      remaining candidate is taken. */
  lemma {:induction false} AttemptsExhausted(urls: Urls, candidates: seq<string>, createFailsAt: Option<nat>, n: nat)
    requires n <= |candidates|
    ensures Attempts(urls, candidates, createFailsAt, n) == Exhausted
            <==> && !(createFailsAt.Some? && n <= createFailsAt.value < |candidates|)
                 && forall k :: n <= k < |candidates| ==> candidates[k] in urls
    decreases |candidates| - n
  {
    if n < |candidates| && createFailsAt != Some(n) && candidates[n] in urls {
      AttemptsExhausted(urls, candidates, createFailsAt, n + 1);
    }
  }

  /** A create failing at attempt f ends the attempts exactly when every
      candidate before f is taken. */
  lemma {:induction false} AttemptsCreateFailure(urls: Urls, candidates: seq<string>, f: nat, n: nat)
    requires n <= f < |candidates|
    ensures Attempts(urls, candidates, Some(f), n) == CreateFailed
            <==> forall k :: n <= k < f ==> candidates[k] in urls
    decreases |candidates| - n
  {
    if n < f && candidates[n] in urls {
      AttemptsCreateFailure(urls, candidates, f, n + 1);
    }
  }

  // ---------------------------------------------------------------------------
  // Claiming a key

  /** How a claim ends once its attempts have ended with `e`: giving up and
      a failed create leave the mappings alone, and a created key is counted
      under its length, where a failing count fails the call but the mapping
      stays. `st` is the state with the length cached. */
  function Settle(urls: Urls, st: StateAccessor.State, url: string, length: int, candidates: seq<string>,
                  counterReplies: StateAccessor.CasReplies, e: AttemptsEnd): (r: (Result<string>, Shortener))
    requires e.Created? ==> e.attempt < |candidates|
    ensures r.1.state.lengthCache == st.lengthCache
    ensures r.0.Err? ==> r.1.state.counters == st.counters
    ensures e.Created? ==> r.1.urls == urls[candidates[e.attempt] := url]
    ensures !e.Created? ==> r.1.urls == urls
    ensures r.0 == Err(UnusedHashNotFound) <==> e.Exhausted?
    ensures r.0.Err? ==> r.0.error in {StoreFailure, UnusedHashNotFound}
    ensures r.0.Ok? <==> e.Created? && !counterReplies.raises
    ensures r.0.Ok? ==> r.0.value == candidates[e.attempt]
    ensures r.0.Ok? ==> StateAccessor.GetCountForLength(r.1.state.counters, length)
                        == StateAccessor.GetCountForLength(st.counters, length) + 1
    ensures forall p :: p != StateAccessor.CountPath(length) ==>
              StateAccessor.Read(r.1.state.counters, p) == StateAccessor.Read(st.counters, p)
  {
    match e
    case Exhausted => (Err(UnusedHashNotFound), Shortener(urls, st))
    case CreateFailed => (Err(StoreFailure), Shortener(urls, st))
    case Created(j) =>
      var counted := StateAccessor.IncrementCountForLength(st, length, counterReplies);
      var outcome := if counted.outcome.Err? then Err(counted.outcome.error) else Ok(candidates[j]);
      (outcome, Shortener(urls[candidates[j] := url], counted.state))
  }

  /** What a claim achieves, attempt by attempt collapsed into one step: the
      length is read once (and cached); a length outside the digest fails in
      `substring` and the empty key's path is refused; otherwise the
      attempts run from 0 and the claim settles on how they end. A failed
      call counts nothing, only a failing count comes after a creation, and
      no existing mapping is ever replaced. */
  function Claim(s: Shortener, sha256: Sha256Hex, url: string, createFailsAt: Option<nat>,
                 counterReplies: StateAccessor.CasReplies): (r: (Result<string>, Shortener))
    ensures r.1.state.lengthCache == Some(StateAccessor.VisibleHashLength(s.state))
    ensures forall k :: k in s.urls ==> k in r.1.urls && r.1.urls[k] == s.urls[k]
    ensures r.0.Err? ==> r.1.state.counters == s.state.counters
    ensures r.0.Err? && r.0.error != StoreFailure ==> r.1.urls == s.urls
    ensures r.0.Ok? ==> r.0.value !in s.urls && r.1.urls == s.urls[r.0.value := url]
  {
    var length := StateAccessor.VisibleHashLength(s.state);
    var cached := s.(state := s.state.(lengthCache := Some(length)));
    if !(0 <= length <= 64) then (Err(IndexOutOfBounds), cached)
    else if length == 0 then (Err(InvalidPath), cached)
    else
      var candidates := Candidates(sha256, url, length);
      Settle(s.urls, cached.state, url, length, candidates, counterReplies,
             Attempts(s.urls, candidates, createFailsAt, 0))
  }

  /** One attempt of the claim loop: read the current length, build
      candidate n and try to create it. No outcome means the candidate was
      taken and the loop goes on; otherwise the call ends here with that
      outcome, the one the claim settles on. `fails` says whether the store
      fails this create. */
  method TryAttempt(s: Shortener, sha256: Sha256Hex, url: string, n: nat, fails: bool,
                    counterReplies: StateAccessor.CasReplies)
    returns (outcome: Option<Result<string>>, s': Shortener)
    requires n < Limit
    ensures var length := StateAccessor.VisibleHashLength(s.state);
            var cached := s.(state := s.state.(lengthCache := Some(length)));
            && (!(1 <= length <= 64) ==>
                  s' == cached && outcome == Some(Err(if length == 0 then InvalidPath else IndexOutOfBounds)))
            && (1 <= length <= 64 ==>
                  var candidates := Candidates(sha256, url, length);
                  && (outcome.None? <==> !fails && candidates[n] in s.urls)
                  && (outcome.None? ==> s' == cached)
                  && (outcome.Some? ==> (outcome.value, s') == Settle(s.urls, cached.state, url, length, candidates, counterReplies,
                                                 if fails then CreateFailed else Created(n))))
  {
    var (length, st) := StateAccessor.GetCurrentHashLength(s.state, false);
    s' := s.(state := st);
    var shortenedUrl := Hash(sha256, url, n, length);
    if shortenedUrl.Err? {
      outcome := Some(Err(shortenedUrl.error));
      return;
    }
    if length == 0 {
      EmptyKeyPathInvalid();
      outcome := Some(Err(InvalidPath));
      return;
    }
    CandidateIsHash(sha256, url, length, n);
    HexKeyPathValid(shortenedUrl.value);
    var persist := AtomicCheckAndPersist(s'.urls, shortenedUrl.value, url, fails);
    if persist.created.Err? {
      outcome := Some(Err(persist.created.error));
      return;
    }
    if persist.created.value {
      var counted := StateAccessor.IncrementCountForLength(s'.state, length, counterReplies);
      s' := Shortener(persist.urls, counted.state);
      outcome := Some(if counted.outcome.Err? then Err(counted.outcome.error) else Ok(shortenedUrl.value));
      return;
    }
    outcome := None;
  }

  /** Claims a short key for `url`: attempts 0, 1, ... each build a candidate
      and try to create it, and the first creation that succeeds is counted
      under its length and returned. After `Limit` collisions the call fails
      with UnusedHashNotFound. `createFailsAt` and `counterReplies` describe
      how the store answers the creates and the count increment. */
  method GenerateShortened(s: Shortener, sha256: Sha256Hex, url: string, createFailsAt: Option<nat>,
                           counterReplies: StateAccessor.CasReplies)
    returns (r: Result<string>, s': Shortener)
    ensures (r, s') == Claim(s, sha256, url, createFailsAt, counterReplies)
  {
    var n := 0;
    s' := s;
    ghost var length0 := StateAccessor.VisibleHashLength(s.state);
    ghost var cached := s.(state := s.state.(lengthCache := Some(length0)));
    ghost var candidates := if 1 <= length0 <= 64 then Candidates(sha256, url, length0) else [];
    while n < Limit
      invariant 0 <= n <= Limit
      invariant n == 0 ==> s' == s
      invariant n > 0 ==> s' == cached && 1 <= length0 <= 64
      invariant n > 0 ==> Attempts(s.urls, candidates, createFailsAt, 0) == Attempts(s.urls, candidates, createFailsAt, n)
    {
      var outcome;
      outcome, s' := TryAttempt(s', sha256, url, n, createFailsAt == Some(n), counterReplies);
      if outcome.Some? {
        return outcome.value, s';
      }
      n := n + 1;
    }
    r := Err(UnusedHashNotFound);
  }

  /** A returned key was free beforehand and names a valid path; afterwards
      it reads back as the url, and the count for the length used grows by one
      while every other counter stays put. */
  lemma ClaimedKeyWasFree(s: Shortener, sha256: Sha256Hex, url: string, createFailsAt: Option<nat>,
                          counterReplies: StateAccessor.CasReplies)
    ensures var (r, s') := Claim(s, sha256, url, createFailsAt, counterReplies);
            var length := StateAccessor.VisibleHashLength(s.state);
            r.Ok? ==>
              && |r.value| == length
              && GetOriginalUrl(s.urls, r.value) == Ok(None)
              && GetOriginalUrl(s'.urls, r.value) == Ok(Some(url))
              && StateAccessor.GetCountForLength(s'.state.counters, length)
                 == StateAccessor.GetCountForLength(s.state.counters, length) + 1
              && forall p :: p != StateAccessor.CountPath(length) ==>
                   StateAccessor.Read(s'.state.counters, p) == StateAccessor.Read(s.state.counters, p)
  {
    var (r, s') := Claim(s, sha256, url, createFailsAt, counterReplies);
    if r.Ok? {
      var length := StateAccessor.VisibleHashLength(s.state);
      var j := Attempts(s.urls, Candidates(sha256, url, length), createFailsAt, 0).attempt;
      CandidateIsHash(sha256, url, length, j);
      HexKeyPathValid(r.value);
    }
  }

  /** The returned key is candidate j for the least j whose candidate was
      free: every earlier attempt collided. */
  lemma ClaimIsFirstFreeCandidate(s: Shortener, sha256: Sha256Hex, url: string, createFailsAt: Option<nat>,
                                  counterReplies: StateAccessor.CasReplies)
    ensures var (r, s') := Claim(s, sha256, url, createFailsAt, counterReplies);
            var length := StateAccessor.VisibleHashLength(s.state);
            r.Ok? ==> exists j :: 0 <= j < Limit
                        && Hash(sha256, url, j, length) == Ok(r.value)
                        && forall k :: 0 <= k < j ==> Candidates(sha256, url, length)[k] in s.urls
  {
    var (r, s') := Claim(s, sha256, url, createFailsAt, counterReplies);
    if r.Ok? {
      var length := StateAccessor.VisibleHashLength(s.state);
      var candidates := Candidates(sha256, url, length);
      AttemptsCreateFirstFree(s.urls, candidates, createFailsAt, 0);
      var j := FirstFree(s.urls, candidates, 0);
      CandidateIsHash(sha256, url, length, j);
    }
  }

  /** The call gives up exactly when the length is usable, no create fails
      and all `Limit` candidates are taken; it then creates nothing and
      counts nothing. */
  lemma ClaimExhaustion(s: Shortener, sha256: Sha256Hex, url: string, createFailsAt: Option<nat>,
                        counterReplies: StateAccessor.CasReplies)
    ensures var (r, s') := Claim(s, sha256, url, createFailsAt, counterReplies);
            var length := StateAccessor.VisibleHashLength(s.state);
            && (r == Err(UnusedHashNotFound) <==>
                  && 1 <= length <= 64
                  && !(createFailsAt.Some? && createFailsAt.value < Limit)
                  && forall k :: 0 <= k < Limit ==> Candidates(sha256, url, length)[k] in s.urls)
            && (r == Err(UnusedHashNotFound) ==> s'.urls == s.urls && s'.state.counters == s.state.counters)
  {
    var length := StateAccessor.VisibleHashLength(s.state);
    if 1 <= length <= 64 {
      var candidates := Candidates(sha256, url, length);
      AttemptsExhausted(s.urls, candidates, createFailsAt, 0);
    }
  }

  /** A create the store fails ends the call before any later attempt, and
      nothing is created or counted: it happens exactly when the failing
      attempt is reached, that is, when every earlier candidate is taken. */
  lemma CreateFailureEndsClaim(s: Shortener, sha256: Sha256Hex, url: string, f: nat,
                               counterReplies: StateAccessor.CasReplies)
    requires f < Limit
    ensures var (r, s') := Claim(s, sha256, url, Some(f), counterReplies);
            var length := StateAccessor.VisibleHashLength(s.state);
            && (r == Err(StoreFailure) && s'.urls == s.urls
                <==> 1 <= length <= 64 && forall k :: 0 <= k < f ==> Candidates(sha256, url, length)[k] in s.urls)
            && (r == Err(StoreFailure) && s'.urls == s.urls ==> s'.state.counters == s.state.counters)
  {
    var length := StateAccessor.VisibleHashLength(s.state);
    if 1 <= length <= 64 {
      var candidates := Candidates(sha256, url, length);
      AttemptsCreateFailure(s.urls, candidates, f, 0);
      var (r, s') := Claim(s, sha256, url, Some(f), counterReplies);
      if Attempts(s.urls, candidates, Some(f), 0).Created? {
        assert r.Ok? || r.error == StoreFailure;
        assert candidates[Attempts(s.urls, candidates, Some(f), 0).attempt] in s'.urls;
      }
    }
  }

  /** Whatever the outcome, every claimed key reads back as before. */
  lemma ClaimNeverOverwrites(s: Shortener, sha256: Sha256Hex, url: string, createFailsAt: Option<nat>,
                             counterReplies: StateAccessor.CasReplies, key: string)
    requires key in s.urls
    ensures var (r, s') := Claim(s, sha256, url, createFailsAt, counterReplies);
            GetOriginalUrl(s'.urls, key) == GetOriginalUrl(s.urls, key)
  {
  }

  /** A failed count increment comes after the creation: the call fails and
      the counters do not move; when no create failed, the failure is the
      store's and the new mapping stays. */
  lemma CountFailureKeepsMapping(s: Shortener, sha256: Sha256Hex, url: string, createFailsAt: Option<nat>,
                                 counterReplies: StateAccessor.CasReplies)
    requires counterReplies.raises
    ensures var (r, s') := Claim(s, sha256, url, createFailsAt, counterReplies);
            r.Err? && s'.state.counters == s.state.counters
            && (r.error == StoreFailure && createFailsAt.None? ==> exists k :: k !in s.urls && s'.urls == s.urls[k := url])
  {
    var length := StateAccessor.VisibleHashLength(s.state);
    if 1 <= length <= 64 {
      var candidates := Candidates(sha256, url, length);
      var end := Attempts(s.urls, candidates, createFailsAt, 0);
      if end.Created? {
        var key := candidates[end.attempt];
        assert Claim(s, sha256, url, createFailsAt, counterReplies).1.urls == s.urls[key := url];
      }
    }
  }

  /** Two successive claims never hand out the same key. */
  lemma ClaimsNeverRepeat(s: Shortener, sha256: Sha256Hex, url1: string, url2: string,
                          fails1: Option<nat>, fails2: Option<nat>,
                          replies1: StateAccessor.CasReplies, replies2: StateAccessor.CasReplies)
    ensures var (r1, s1) := Claim(s, sha256, url1, fails1, replies1);
            var (r2, s2) := Claim(s1, sha256, url2, fails2, replies2);
            r1.Ok? && r2.Ok? ==> r1.value != r2.value && GetOriginalUrl(s2.urls, r1.value) == Ok(Some(url1))
  {
    var (r1, s1) := Claim(s, sha256, url1, fails1, replies1);
    ClaimedKeyWasFree(s, sha256, url1, fails1, replies1);
    ClaimedKeyWasFree(s1, sha256, url2, fails2, replies2);
  }

  /** With no mappings yet, the first candidate wins: the key is the first
      `length` digest characters of the url followed by "0". */
  lemma FirstClaimOnEmptyStore(s: Shortener, sha256: Sha256Hex, url: string, createFailsAt: Option<nat>,
                               counterReplies: StateAccessor.CasReplies)
    requires s.urls == map[]
    requires 1 <= StateAccessor.VisibleHashLength(s.state) <= 64
    requires createFailsAt != Some(0)
    requires !counterReplies.raises
    ensures var length := StateAccessor.VisibleHashLength(s.state);
            var (r, s') := Claim(s, sha256, url, createFailsAt, counterReplies);
            r == Ok(sha256(url + "0")[..length]) && |r.value| == length
  {
    var length := StateAccessor.VisibleHashLength(s.state);
    CandidateIsHash(sha256, url, length, 0);
    assert IntToString(0) == "0";
  }
}

=== FILE: zookeeper_client.dfy ===
/** The ZooKeeper client's own logic: rendering the ensemble as dynamic
    reconfiguration server specs, reacting to membership watch events, and
    registering a member.

    A server spec of ZooKeeper 3.5 dynamic reconfiguration reads
      server.<positive id>=<address>:<quorum port>:<election port>[:<role>];[<client address>:]<client port>
    where the role, participant or observer, defaults to participant and the
    client address defaults to 0.0.0.0. */
module ZooKeeperClient {
  import opened Common
  import opened Text
  import opened Nodes
  import DynamicEnsembleProvider

  datatype Role = Participant | Observer

  /** One parsed server spec. */
  datatype ServerSpec = ServerSpec(
    id: nat,
    address: string,
    quorumPort: nat,
    electionPort: nat,
    role: Role,
    clientAddress: string,
    clientPort: nat)

  const DefaultClientAddress := "0.0.0.0"

  /** `%d` of a boxed Integer: its digits, or "null" for a null id. */
  function IdText(id: Option<int>): string
  {
    match id
    case Some(i) => IntToString(i)
    case None => "null"
  }

  /** The spec line for one node, always with the participant role. The
      grammar reads it back as the node's spec whenever the node is
      expressible; a node without an id renders as `server.null=...`, which
      is not a server spec. */
  function ReconfigEntry(n: Node): (line: string)
    ensures Expressible(n) ==> ParseServerSpec(line) == Some(SpecOf(n))
    ensures n.id.None? ==> ParseServerSpec(line) == None
  {
    var afterId := n.address + ":" + PortsText(n);
    var line := "server." + (IdText(n.id) + "=" + afterId);
    if Expressible(n) then
      ExpressibleEntryParses(n, afterId, line);
      line
    else if n.id.None? then
      NonNumericIdDoesNotParse("null", afterId);
      line
    else line
  }

  lemma ExpressibleEntryParses(n: Node, afterId: string, line: string)
    requires Expressible(n)
    requires afterId == n.address + ":" + PortsText(n)
    requires line == "server." + (IntToString(n.id.value) + "=" + afterId)
    ensures ParseServerSpec(line) == Some(SpecOf(n))
  {
    var idText := IntToString(n.id.value);
    assert line[..7] == "server." && line[7..] == idText + "=" + afterId;
    NatRoundTrip(n.id.value);
    SplitFirstConcat(idText, '=', afterId);
    SplitFirstConcat(n.address, ':', PortsText(n));
    PortsPartRoundTrip(n);
  }

  /** The part of a node's spec line after its address. */
  function PortsText(n: Node): string
  {
    IntToString(n.quorumPort) + ":" + (IntToString(n.leaderElectionPort) + ":participant" + ";" + IntToString(n.clientPort))
  }

  /** One spec line per node, in the nodes' order. */
  function GetReconfigEnsembleString(nodes: seq<Node>): (r: seq<string>)
    ensures |r| == |nodes|
    ensures forall i :: 0 <= i < |nodes| ==> r[i] == ReconfigEntry(nodes[i])
  {
    if |nodes| == 0 then [] else [ReconfigEntry(nodes[0])] + GetReconfigEnsembleString(nodes[1..])
  }

  function ParseRole(s: string): Option<Role>
  {
    if s == "participant" then Some(Participant)
    else if s == "observer" then Some(Observer)
    else None
  }

  /** `<election port>[:<role>]`. */
  function ParseElectionAndRole(s: string): Option<(nat, Role)>
  {
    match SplitFirst(s, ':')
    case None =>
      var port :- ParseNat(s);
      Some((port, Participant))
    case Some(parts) =>
      var port :- ParseNat(parts.0);
      var role :- ParseRole(parts.1);
      Some((port, role))
  }

  /** `[<client address>:]<client port>`. */
  function ParseClientPart(s: string): Option<(string, nat)>
  {
    match SplitFirst(s, ':')
    case None =>
      var port :- ParseNat(s);
      Some((DefaultClientAddress, port))
    case Some(parts) =>
      var port :- ParseNat(parts.1);
      Some((parts.0, port))
  }

  /** What follows the address: the ports, role and client address. */
  datatype PortsPart = PortsPart(quorumPort: nat, electionPort: nat, role: Role,
                                 clientAddress: string, clientPort: nat)

  /** `<quorum port>:<election port>[:<role>];[<client address>:]<client port>`. */
  function ParsePortsPart(s: string): Option<PortsPart>
  {
    var quorumAndRest :- SplitFirst(s, ':');
    var quorumPort :- ParseNat(quorumAndRest.0);
    var serverAndClient :- SplitFirst(quorumAndRest.1, ';');
    var electionAndRole :- ParseElectionAndRole(serverAndClient.0);
    var client :- ParseClientPart(serverAndClient.1);
    Some(PortsPart(quorumPort, electionAndRole.0, electionAndRole.1, client.0, client.1))
  }

  /** Reads one server spec line; None when it does not follow the grammar. */
  function ParseServerSpec(line: string): Option<ServerSpec>
  {
    if |line| < 7 || line[..7] != "server." then None
    else
      var idAndRest :- SplitFirst(line[7..], '=');
      var id :- ParseNat(idAndRest.0);
      if id == 0 then None
      else
        var addressAndRest :- SplitFirst(idAndRest.1, ':');
        var ports :- ParsePortsPart(addressAndRest.1);
        Some(ServerSpec(id, addressAndRest.0, ports.quorumPort, ports.electionPort, ports.role,
                        ports.clientAddress, ports.clientPort))
  }

  /** A node the grammar can express: a positive id, ports that are not
      negative, and an address free of the separators ':' and ';'. */
  predicate Expressible(n: Node)
  {
    && n.id.Some? && n.id.value > 0
    && n.quorumPort >= 0 && n.leaderElectionPort >= 0 && n.clientPort >= 0
    && ':' !in n.address && ';' !in n.address
  }

  /** The spec a node stands for, as a participant with the default client address. */
  function SpecOf(n: Node): ServerSpec
    requires Expressible(n)
  {
    ServerSpec(n.id.value, n.address, n.quorumPort, n.leaderElectionPort, Participant,
               DefaultClientAddress, n.clientPort)
  }

  lemma NatRoundTrip(n: int)
    requires n >= 0
    ensures ParseNat(IntToString(n)) == Some(n)
    ensures ':' !in IntToString(n) && ';' !in IntToString(n) && '=' !in IntToString(n)
  {
    ParseNatToString(n);
    NatToStringHasNo(n, ':');
    NatToStringHasNo(n, ';');
    NatToStringHasNo(n, '=');
  }

  lemma ElectionAndRoleRoundTrip(electionPort: nat)
    ensures ParseElectionAndRole(IntToString(electionPort) + ":participant") == Some((electionPort, Participant))
  {
    var e := IntToString(electionPort);
    NatRoundTrip(electionPort);
    assert e + ":participant" == e + [':'] + "participant";
    SplitFirstConcat(e, ':', "participant");
  }

  lemma ClientPartRoundTrip(clientPort: nat)
    ensures ParseClientPart(IntToString(clientPort)) == Some((DefaultClientAddress, clientPort))
  {
    NatRoundTrip(clientPort);
  }

  lemma PortsPartRoundTrip(n: Node)
    requires n.quorumPort >= 0 && n.leaderElectionPort >= 0 && n.clientPort >= 0
    ensures ParsePortsPart(PortsText(n))
              == Some(PortsPart(n.quorumPort, n.leaderElectionPort, Participant, DefaultClientAddress, n.clientPort))
  {
    var q, e, c := IntToString(n.quorumPort), IntToString(n.leaderElectionPort), IntToString(n.clientPort);
    NatRoundTrip(n.quorumPort);
    NatRoundTrip(n.leaderElectionPort);
    var electionAndRole := e + ":participant";
    SplitFirstConcat(q, ':', electionAndRole + ";" + c);
    assert ';' !in electionAndRole;
    SplitFirstConcat(electionAndRole, ';', c);
    ElectionAndRoleRoundTrip(n.leaderElectionPort);
    ClientPartRoundTrip(n.clientPort);
  }

  /** The whole reconfiguration list reads back as the nodes' specs, in order,
      every one a participant. */
  lemma ReconfigListRoundTrip(nodes: seq<Node>)
    requires forall i :: 0 <= i < |nodes| ==> Expressible(nodes[i])
    ensures var entries := GetReconfigEnsembleString(nodes);
            && |entries| == |nodes|
            && forall i :: 0 <= i < |nodes| ==>
                 && ParseServerSpec(entries[i]) == Some(SpecOf(nodes[i]))
                 && ParseServerSpec(entries[i]).value.role == Participant
  {
  }

  /** A line whose id is not a number is not a server spec. */
  lemma NonNumericIdDoesNotParse(idText: string, rest: string)
    requires '=' !in idText && |idText| > 0 && !IsDigit(idText[0])
    ensures ParseServerSpec("server." + (idText + "=" + rest)) == None
  {
    var line := "server." + (idText + "=" + rest);
    assert line[..7] == "server." && line[7..] == idText + "=" + rest;
    SplitFirstConcat(idText, '=', rest);
  }

  // ---------------------------------------------------------------------------
  // Watch events and registration

  /** ZooKeeper's watch event types. */
  datatype EventType =
    | NoneEvent
    | NodeCreated
    | NodeDeleted
    | NodeDataChanged
    | NodeChildrenChanged
    | DataWatchRemoved
    | ChildWatchRemoved
    | PersistentWatchRemoved

  /** What a watch event leaves behind: the provider and coordinator, and the
      joining list sent to the reconfiguration call, if one was sent. */
  datatype Reaction = Reaction(
    provider: DynamicEnsembleProvider.Provider,
    coordinator: DynamicEnsembleProvider.Coordinator,
    joining: Option<seq<string>>)

  /** The watch handler: only a children-changed event refreshes the snapshot
      and asks the ensemble to reconfigure with it. A failure is logged and
      dropped, never raised. */
  function HandleWatchEvent(event: EventType, p: DynamicEnsembleProvider.Provider,
                            c: DynamicEnsembleProvider.Coordinator): (r: Reaction)
    ensures event != NodeChildrenChanged ==> r == Reaction(p, c, None)
    ensures event == NodeChildrenChanged ==>
              var refreshed := DynamicEnsembleProvider.RefreshConnectionString(p, c);
              && r.provider == refreshed.provider
              && r.coordinator == refreshed.coordinator
              && (r.joining.Some? <==> refreshed.outcome.Ok?)
    ensures r.joining.Some? ==> r.joining.value == GetReconfigEnsembleString(r.provider.ensembleNodes)
    ensures r.joining.None? ==> r.provider == p
  {
    if event != NodeChildrenChanged then Reaction(p, c, None)
    else
      var refreshed := DynamicEnsembleProvider.RefreshConnectionString(p, c);
      if refreshed.outcome.Err? then Reaction(refreshed.provider, refreshed.coordinator, None)
      else
        var newEnsemble := GetReconfigEnsembleString(refreshed.provider.ensembleNodes);
        Reaction(refreshed.provider, refreshed.coordinator, Some(newEnsemble))
  }

  /** Every node of a refreshed snapshot lacks an id, so no line of the
      joining list the handler sends is a server spec. */
  lemma JoiningNeverParses(event: EventType, p: DynamicEnsembleProvider.Provider,
                           c: DynamicEnsembleProvider.Coordinator)
    ensures var r := HandleWatchEvent(event, p, c);
            r.joining.Some? ==> forall i :: 0 <= i < |r.joining.value| ==> ParseServerSpec(r.joining.value[i]) == None
  {
    var r := HandleWatchEvent(event, p, c);
    if r.joining.Some? {
      var nodes := r.provider.ensembleNodes;
      RefreshedNodesHaveNoId(p, c);
      assert forall i :: 0 <= i < |nodes| ==> nodes[i].id.None?;
    }
  }

  lemma RefreshedNodesHaveNoId(p: DynamicEnsembleProvider.Provider, c: DynamicEnsembleProvider.Coordinator)
    requires DynamicEnsembleProvider.RefreshConnectionString(p, c).outcome.Ok?
    ensures var nodes := DynamicEnsembleProvider.RefreshConnectionString(p, c).provider.ensembleNodes;
            forall i :: 0 <= i < |nodes| ==> nodes[i].id.None?
  {
    DynamicEnsembleProvider.RefreshedSnapshot(p, c);
  }

  /** The ephemeral child name for a registration at time `millis`. */
  function MemberName(millis: int): string
  {
    "server-" + IntToString(millis)
  }

  /** Registers a member under the membership path (creating the path when
      missing): a new child named after the timestamp, whose data is the
      member's address. A name already taken raises NodeExists, and
      `storeFails` says whether the store answers the create with another
      error (a lost connection, say); either is rethrown and changes
      nothing. The new child is kept last, in creation order. */
  function RegisterMember(c: DynamicEnsembleProvider.Coordinator, millis: int, memberAddress: string,
                          storeFails: bool)
    : (r: (Result<()>, DynamicEnsembleProvider.Coordinator))
    ensures var members := if c.members.Some? then c.members.value else [];
            var member := DynamicEnsembleProvider.Member(MemberName(millis), Some(memberAddress));
            var taken := exists i :: 0 <= i < |members| && members[i].name == MemberName(millis);
            && (r.0.Ok? <==> !storeFails && !taken)
            && (r.0.Ok? ==> r.1.members == Some(members + [member]))
            && (r.0.Ok? ==> multiset(r.1.members.value) == multiset(members) + multiset{member})
            && (r.0.Err? ==> r.1 == c)
            && (r.0.Err? ==> (r.0.error == StoreFailure <==> storeFails))
            && (r.0.Err? && !storeFails ==> r.0.error == NodeExists)
  {
    var members := if c.members.Some? then c.members.value else [];
    var memberId := MemberName(millis);
    if storeFails then (Err(StoreFailure), c)
    else if exists i :: 0 <= i < |members| && members[i].name == memberId then (Err(NodeExists), c)
    else (Ok(()), DynamicEnsembleProvider.Coordinator(Some(members + [DynamicEnsembleProvider.Member(memberId, Some(memberAddress))])))
  }

  /** Registration followed by a successful refresh puts the new member's host
      into the snapshot, among the listed members and before the two seeds,
      whatever order the store lists the children in: `listing` is any
      ordering of the registered members. */
  lemma RegisteredMemberJoinsSnapshot(c: DynamicEnsembleProvider.Coordinator, millis: int,
                                      memberAddress: string, p: DynamicEnsembleProvider.Provider,
                                      listing: seq<DynamicEnsembleProvider.Member>)
    requires RegisterMember(c, millis, memberAddress, false).0.Ok?
    requires multiset(listing) == multiset(RegisterMember(c, millis, memberAddress, false).1.members.value)
    requires DynamicEnsembleProvider.RefreshConnectionString(p, DynamicEnsembleProvider.Coordinator(Some(listing))).outcome.Ok?
    ensures var nodes := DynamicEnsembleProvider.RefreshConnectionString(p, DynamicEnsembleProvider.Coordinator(Some(listing))).provider.ensembleNodes;
            && DynamicEnsembleProvider.FirstField(memberAddress).Some?
            && exists i :: 0 <= i < |nodes| - 2 && nodes[i] == NodeWithDefaultPorts(None, DynamicEnsembleProvider.FirstField(memberAddress).value)
  {
    var member := DynamicEnsembleProvider.Member(MemberName(millis), Some(memberAddress));
    var listed := DynamicEnsembleProvider.Coordinator(Some(listing));
    DynamicEnsembleProvider.RefreshedSnapshot(p, listed);
    assert member in multiset(listing);
    var j :| 0 <= j < |listing| && listing[j] == member;
    var nodes := DynamicEnsembleProvider.RefreshConnectionString(p, listed).provider.ensembleNodes;
    assert nodes[j] == NodeWithDefaultPorts(None, DynamicEnsembleProvider.FirstField(memberAddress).value);
  }
}
